=== FILE: README.md ===
# gmlloader5: a Dafny model of the GML BLOB loader

The loader fills the `gml_objects` table of a deegree BLOB feature store from a
GML 3.2 document. Its core is one class, `GmlLoader`, and the `main()` routine
that drives it. This project models both as pure functions over immutable data
and proves what they guarantee.

- **The type registry** (`TypeRegistry`, on top of `PyDict`). The constructor
  reads `feature_types` and maps the local part of each qualified type name
  (`{namespace}Local`) to its code. It uses `dict.update`, so when two rows share
  a local name the later row wins. A row without `}` raises, the constructor's
  `except` catches it, and the run ends.
- **The envelope index** (`Envelope`). `getGeomDict` walks the layers the GMLAS
  driver exposes. For each layer with an `id` field, it enters every feature that
  has a geometry under its id. The value is the WKT of `getGeomEnvelope` of that
  geometry: the point at (minX, minY) for a POINT, and otherwise the bounding box
  as a closed 5-vertex ring.
- **One feature** (`FeatureLoad`). `loadGml` works in these steps:
  - it substitutes the CRS notation and parses the element;
  - it takes the first `gml:id` and resolves the local tag name by a linear scan
    of the registry (a miss gives `None`, printed as `None` in the SQL);
  - it minifies the serialisation, doubles the single quotes and turns
    backslashes into slashes;
  - it builds the 4-column insert when a non-empty envelope exists for the id,
    and the 3-column insert otherwise.
- **The run** (`LoadSession`). `main()` first constructs the loader. It then
  deletes the table and restarts its sequence, and commits that. It parses the
  source document, and every feature member is loaded in document order in one
  open transaction. A single commit, the close and the vacuum follow.
  - A failing connect ends the run without issuing anything.
  - A failing `feature_types` read, or a type name without `}`, closes the
    connection and ends the run.
  - A failing `DELETE`, `ALTER SEQUENCE`, commit of the delete, or insert rolls
    back, closes and exits.
  - An exception that nothing catches ends the process and drops the open
    transaction. This covers a feature that raises before its insert, an
    unreadable document, and a failing commit.

The database is modelled as three parts: the committed rows, the rows inserted
but not yet committed, and the log of statements issued in order, the
`SELECT` of `feature_types` and a statement that raised included. Whether each
step succeeds is an input (`Faults`): the connect, the `feature_types` read, the
`DELETE`, the `ALTER SEQUENCE`, their commit, the document parse, each insert,
the commit and the vacuum. lxml's parser
is an input function from text to an optional `Node`. The GMLAS driver's layers
are an input sequence of `Layer` values.

`loadGml` takes the first matching key in its scan of the registry. But the
registry is built with `dict.update`, so each local name holds the code of the
LAST row carrying it. `TypeRegistry.ResolveFromRows` proves last-wins.

The envelope ring runs (minX, minY), (minX, maxY), (maxX, maxY), (maxX, minY)
and back. The source's comment calls this the right-hand rule. For a proper box
the ring is clockwise, which `Envelope.EnvelopeRingOrientation` proves.

## Model

| member | source | states |
|---|---|---|
| PyDict.Update | src/gmlloader5/gmlloader.py:54 | `dict.update({k: v})` keeps keys distinct and grows the dict by at most one item |
| PyDict.Get | src/gmlloader5/gmlloader.py:198-202 | a lookup is absent exactly when no item has the key, and a present value is paired with the key in the dict |
| PyDict.GetUpdate | src/gmlloader5/gmlloader.py:54 | after an update the key yields the new value and every other key yields what it did before |
| PyDict.Find | src/gmlloader5/gmlloader.py:198-202 | the `for ... if key == k: ...; break` scan over `items()` returns exactly the dict's value for the key, or None |
| PyDict.LastValue | src/gmlloader5/gmlloader.py:51-54 | the reference meaning of a run of updates: absent iff the key never occurs, else the value of its last occurrence |
| PyDict.GetUpdateAll | src/gmlloader5/gmlloader.py:51-54 | after a run of updates a key holds the value of its last update, or its old value if it was never updated |
| PyDict.UpdateAllConcat | src/gmlloader5/gmlloader.py:51-54 | updating with a concatenation is updating with each part in turn |
| Text.Split | src/gmlloader5/gmlloader.py:52 | `split("}")` yields at least one piece, no piece holds the separator, and there is one piece exactly when the separator is absent |
| Text.JoinSplit | src/gmlloader5/gmlloader.py:52 | joining the pieces of a split restores the string |
| Text.SplitJoin | src/gmlloader5/gmlloader.py:52 | splitting a join of separator-free pieces gives the pieces back |
| TypeRegistry.LocalName | src/gmlloader5/gmlloader.py:52-53 | `split("}")[1]` fails (IndexError) exactly on a name without `}`, and otherwise yields a segment free of `}` |
| TypeRegistry.LocalNameSegment | src/gmlloader5/gmlloader.py:52-53 | the local name is the text between the first and the second `}` |
| TypeRegistry.LocalNameOfQualified | src/gmlloader5/gmlloader.py:197 | `{ns}Local` yields `Local` |
| TypeRegistry.Entries | src/gmlloader5/gmlloader.py:51-54 | the (local name, code) pair of row i is the i-th update |
| TypeRegistry.BuildFrom | src/gmlloader5/gmlloader.py:51-59 | the row loop fails exactly when some row lacks `}`, and otherwise keeps the keys distinct |
| TypeRegistry.BuildFromIsUpdateAll | src/gmlloader5/gmlloader.py:51-54 | the row loop performs exactly one `update` per row, in row order |
| TypeRegistry.Build | src/gmlloader5/gmlloader.py:38-59 | the registry exists exactly when every row is well formed, and then it has distinct keys |
| TypeRegistry.ResolveFromRows | src/gmlloader5/gmlloader.py:51-54 | a name resolves exactly when some row has that local name, and then to the code of the LAST such row |
| Envelope.GeomEnvelope | src/gmlloader5/gmlloader.py:61-89 | a POINT gives the point at (minX, minY); anything else gives a closed 5-vertex ring that starts at (minX, minY), visits every corner of the box, and whose edges alternate between vertical and horizontal, starting vertical |
| Envelope.BoxRingDetermined | src/gmlloader5/gmlloader.py:78-83 | exactly one ring meets that contract for every box, flat boxes included: (minX, minY), (minX, maxY), (maxX, maxY), (maxX, minY), (minX, minY) |
| Envelope.EnvelopeRingOrientation | src/gmlloader5/gmlloader.py:78-83 | for a proper box the ring is clockwise with area w*h, and each edge moves along exactly one axis |
| Envelope.Wkt | src/gmlloader5/gmlloader.py:113 | the exported WKT is non-empty and starts with `POINT (` exactly for a point |
| Envelope.PointWkt | src/gmlloader5/gmlloader.py:73-76 | a point at (10, 20) is exported as `POINT (10 20)` |
| Envelope.LastInLayerMeaning | src/gmlloader5/gmlloader.py:108-115 | within one layer the last feature with a geometry and the id decides the entry, and there is none if no such feature exists |
| Envelope.GetIndexFeatures | src/gmlloader5/gmlloader.py:108-115 | the inner loop's lookup is the last carrier's envelope in the layer, or the old entry |
| Envelope.GetIndexLayers | src/gmlloader5/gmlloader.py:104-115 | the outer loop's lookup is the last entered feature's envelope, or the old entry |
| Envelope.LastEnteredMeaning | src/gmlloader5/gmlloader.py:104-115 | the reference index is absent exactly when nothing was entered, and otherwise holds the envelope of the last entered feature |
| Envelope.IndexLookup | src/gmlloader5/gmlloader.py:100-117 | `geomDict` holds an id exactly when some feature with that id and a geometry lies in a layer with an `id` field, and then holds the non-empty WKT of the last such feature, in layer order and then feature order within the layer (the driver's iteration order) |
| Text.ReplaceAbsent | src/gmlloader5/gmlloader.py:191 | `str.replace` with a pattern that does not occur leaves the text unchanged |
| Text.ReplaceSelf | src/gmlloader5/gmlloader.py:191 | replacing the source CRS notation by itself leaves the element unchanged |
| Text.TrimLeadingSpace | src/gmlloader5/gmlloader.py:206 | the `\s*` part of a match drops exactly the leading whitespace run |
| Text.Minify | src/gmlloader5/gmlloader.py:206 | `re.sub('\n\s*', '', s)` leaves no newline and never lengthens the text |
| Text.MinifyKeepsNonSpace | src/gmlloader5/gmlloader.py:206 | minification deletes whitespace only: the other characters survive in order |
| Text.TrimAllSpace | src/gmlloader5/gmlloader.py:206 | a run made of whitespace only is consumed entirely by `\s*` |
| Text.MinifyNewlineRun | src/gmlloader5/gmlloader.py:206 | a newline at the start of the text is deleted together with the whole whitespace run after it, so `\n` + spaces + `t` minifies like `t` |
| Text.MinifyFirstNewline | src/gmlloader5/gmlloader.py:206 | the first newline anywhere is deleted together with the whitespace run after it: `p` + `\n` + spaces + `t` minifies to `p` followed by the minified `t`, for newline-free `p` |
| Text.MinifyNewlineFree | src/gmlloader5/gmlloader.py:206 | text without a newline is left as it is |
| Text.MinifyIdempotent | src/gmlloader5/gmlloader.py:206 | minifying twice is minifying once |
| Text.MinifyConcat | src/gmlloader5/gmlloader.py:206 | minification works piecewise across a cut followed by a non-whitespace character |
| Text.NonSpaceTrim | src/gmlloader5/gmlloader.py:206 | trimming leading whitespace keeps every other character |
| Text.DoubleQuotes | src/gmlloader5/gmlloader.py:208 | every single quote is doubled: the length grows by the number of quotes and the set of characters is unchanged |
| Text.SlashBackslashes | src/gmlloader5/gmlloader.py:209 | no backslash remains, the length is unchanged and no other character appears or disappears |
| Text.CollapseDoubleQuotes | src/gmlloader5/gmlloader.py:208 | collapsing `''` to `'` inverts the quote doubling |
| Text.SlashDoubleQuotesCommute | src/gmlloader5/gmlloader.py:208-209 | the two escapes touch disjoint characters, so their order does not matter |
| Text.NormalisePayloadProperties | src/gmlloader5/gmlloader.py:204-209 | the stored payload is one line without backslashes, one character longer per quote than the minified text, and collapsing its quotes gives the minified text with slashes |
| Text.EscapesAreReplacements | src/gmlloader5/gmlloader.py:208-209 | the two `re.sub` calls are plain literal replacements |
| Text.NatToString | src/gmlloader5/gmlloader.py:221-223 | `str(n)` of a natural is a non-empty digit string without a leading zero |
| Text.IntToStringRoundTrip | src/gmlloader5/gmlloader.py:221-223 | reading back `str(n)` gives `n` |
| Text.IntToStringInjective | src/gmlloader5/gmlloader.py:221-223 | distinct codes print differently |
| Text.ParseNatToString | src/gmlloader5/gmlloader.py:221-223 | reading back the digits of a natural gives the natural |
| FeatureLoad.EnvelopeFor | src/gmlloader5/gmlloader.py:211-217 | an envelope is used exactly when the id is in the index with a non-empty value (`if geomWkt:`) |
| FeatureLoad.Transform | src/gmlloader5/gmlloader.py:191-209 | a record is produced exactly when the element parses, has a `gml:id` and a namespaced tag; then it has the first id, the registry's code for the local name (None on a miss), the normalised payload and the envelope |
| FeatureLoad.TransformErrors | src/gmlloader5/gmlloader.py:191-197 | which exception comes first: the parse error, then IndexError on the missing id, then IndexError on the tag without a namespace |
| FeatureLoad.SubstituteCrsAbsent | src/gmlloader5/gmlloader.py:191 | an element without the source CRS notation is parsed unchanged |
| FeatureLoad.TransformPayload | src/gmlloader5/gmlloader.py:204-209 | the payload of a record satisfies the payload pipeline's properties |
| FeatureLoad.TransformAgainstSources | src/gmlloader5/gmlloader.py:196-217 | the code is None exactly when no type row has the local name, and the envelope is present exactly when the document entered a feature with the id, taken from the last one |
| FeatureLoad.CodeText | src/gmlloader5/gmlloader.py:221-223 | `str(intType)` is never empty |
| FeatureLoad.CodeTextInjective | src/gmlloader5/gmlloader.py:198-202 | a registry miss (`None`) never prints like a code, and distinct codes print differently |
| FeatureLoad.InsertVariant | src/gmlloader5/gmlloader.py:217-223 | the 4-column insert is built exactly when the record has an envelope, and the 3-column insert exactly when it has none |
| FeatureLoad.InsertEmbedsValues | src/gmlloader5/gmlloader.py:219-223 | both variants carry id, code and payload verbatim after their header; the 4-column one ends with `ST_GeomFromText` of the envelope and the 3-column one with `')`, with nothing else in between |
| LoadSession.Open | src/gmlloader5/gmlloader.py:43-59 | the constructor succeeds exactly when the connect and the read succeed and every type row is well formed. Otherwise it fails with a connection fault: nothing is logged when the connect fails; otherwise the `SELECT` of the type rows is logged, followed by the close when the read or a row fails |
| LoadSession.Clear | src/gmlloader5/gmlloader.py:237-248 | the delete succeeds exactly when `DELETE`, `ALTER SEQUENCE` and the commit all succeed, and then commits an empty table. Otherwise the statements up to the one that raised are logged, then the rollback and the close, and the committed rows stay as they were |
| LoadSession.Load | src/gmlloader5/gmlloader.py:225-232 | a feature that transformed and inserted joins the open transaction; any other feature ends the run with the open transaction dropped; nothing is committed. The insert is logged whether it succeeds or raises, and a raising one is followed by the rollback and the close |
| LoadSession.CommitAll | src/gmlloader5/gmlloader.py:119-122 | a successful commit appends the open transaction to the committed rows; a failing one ends the run with the open transaction lost and the committed rows unchanged. The commit is logged either way |
| LoadSession.ReadDocument | src/ClientGmlLoader.py:43-44 | an unreadable source document ends the run after the delete was committed, issuing nothing more |
| LoadSession.CloseConnection | src/gmlloader5/gmlloader.py:124-128 | closing drops anything not committed and keeps the committed rows |
| LoadSession.VacuumTable | src/gmlloader5/gmlloader.py:250-265 | the vacuum never changes the rows, is logged, and succeeds or ends the run |
| LoadSession.LoadAll | src/ClientGmlLoader.py:46-48 | the feature loop never commits, keeps the committed rows, and does nothing once the run has failed |
| LoadSession.LoadAllClean | src/ClientGmlLoader.py:46-48 | without failures every feature is inserted into the open transaction in document order |
| LoadSession.LoadAllDirty | src/ClientGmlLoader.py:46-48 | with any failure the loop ends failed with an empty open transaction |
| LoadSession.LoadAllStopsAtFailure | src/ClientGmlLoader.py:46-48 | no feature after the failing one is processed |
| LoadSession.LoadFeatures | src/ClientGmlLoader.py:46-48 | the loop over the feature members, with its exit on the first failure, computes the loaded session |
| LoadSession.RunLoader | src/ClientGmlLoader.py:39-55 | `main()` with its loop and its exit on the first failure computes the run's outcome |
| LoadSession.RunFailsBeforeDelete | src/ClientGmlLoader.py:39-40 | a run that fails before the delete has been committed leaves the table as it was. The log of a failed connect is empty. The log of a failed read or a malformed type row is `SelectTypes, Close`. A failed delete logs `SelectTypes`, the delete statements up to and including the one that raised, then `Rollback, Close` |
| LoadSession.LoadAndFinishClean | src/ClientGmlLoader.py:46-53 | after a clean loop the single commit stores every row in order, followed by close and vacuum |
| LoadSession.LoadAndFinishDirty | src/ClientGmlLoader.py:46-53 | after a failing loop or a failing commit nothing is committed |
| LoadSession.FinishCommits | src/ClientGmlLoader.py:50-53 | after a loop that did not fail, a successful commit stores the open transaction, and close and vacuum follow |
| LoadSession.RunAllOrNothing | src/ClientGmlLoader.py:39-55 | once the delete went through, the table holds every feature's row in document order, or nothing. It holds the rows exactly when the document parsed, every feature transformed and was inserted, and the commit succeeded. The `SELECT` of the type rows, the delete and its commit come first, and the run completes exactly when all that held and the vacuum succeeded |
| LoadSession.RunSuccessLog | src/ClientGmlLoader.py:40-53 | a successful run logs the `SELECT` of the type rows, the delete and its commit, one insert per feature in order, then exactly one commit, the close and the vacuum |
| LoadSession.RunEmptyDocument | src/ClientGmlLoader.py:40-50 | a document without feature members leaves an empty table |
| LoadSession.RunSecondOfThreeFails | src/ClientGmlLoader.py:46-50 | three features whose second insert fails leave the table empty, not holding one row |
| LoadSession.RunCommitted | src/ClientGmlLoader.py:39-55 | the final table is the old table if the run failed before the delete, all rows after a run whose document, features, inserts and commit succeeded, and empty otherwise |
| LoadSession.RunIdempotent | src/ClientGmlLoader.py:39-55 | running again on the same inputs leaves the same table |

## Left out

- SQL semantics, psycopg2 and PostgreSQL are not modelled. Statements become log events, and whether each succeeds is an input. The text `InsertSql` builds is modelled, but it is not parsed.
- lxml is not modelled: parsing, the XPath queries and `etree.tostring` are one input function that yields the tag, the `gml:id` values and the serialised text.
- The GMLAS driver, `GetEnvelope` and the geometry types are not modelled. Layers and features are inputs, and a geometry is its name and its four bounds.
- Coordinates are integers. OGR's floating-point bounds and their WKT formatting (`%.15g`-style) are left out, so `Envelope.Wkt` shows the layout of the text but not float rendering.
- `loadGmlSimple` (lines 130-182) is not called by `main()`, and it is not modelled.
- `getConfigLoader`, `configloader`, reading `ConfigLoader.xml` and all logging are not modelled. They yield the settings and the source file, which are inputs.
- Inside `vacuumDatabase`, only its position and outcome are modelled. Its own connect is not logged, and a failure of that connect is logged like a failing `VACUUM`. If the connect fails, its `finally` clause would raise NameError on the unbound `cur`; that shows up only as the run failing.
- `fetchall()` on the type rows is part of the `SELECT`: a failure of either is `readOk` false, and the `SELECT` is logged in both cases.
- Text.IsSpace: covers ASCII whitespace only, although Python's `\s` also matches Unicode spaces.
- `//gml:featureMember/*` is taken as a list of element texts per feature member; nested feature members inside a feature are not modelled.
- Text.Replace has no contract of its own. Its empty-pattern behaviour follows Python, but only the lemmas about it are stated.
- The exit code and message of `sys.exit()` are not modelled: the run ends in `Failed` with the reason.
- `connectOk` covers both `psycopg2.connect` and `conn.cursor()`. When the cursor cannot be made, the `except` branch's `closeConnection` raises on the missing cursor, and the model treats that like a failed connect: nothing is issued.
- `getGeomDict` runs in the constructor before the connect (line 39). A source file the GMLAS driver cannot open raises there, before any statement. The model takes the layers as an input and does not model that failure.
- `closeConnection` is assumed to succeed; a failure of `cursor.close()` or `conn.close()` is not modelled.

=== FILE: envelope.dfy ===
/** Bounding envelopes of feature geometries and the index `GmlLoader.geomDict`
    that maps a feature's `id` field to the WKT of its envelope. */
module Envelope {
  import opened Wrappers
  import opened Text
  import PyDict

  datatype Vertex = Vertex(x: int, y: int)

  /** An OGR geometry as the loader sees it: its `GetGeometryName()` and the
      bounds returned by `GetEnvelope()`, in OGR's order (minX, maxX, minY, maxY). */
  datatype Geometry = Geometry(name: string, minX: int, maxX: int, minY: int, maxY: int)

  /** A 2-D envelope geometry: a point, or a polygon with one ring. */
  datatype Shape = Point(at: Vertex) | Polygon(ring: seq<Vertex>)

  /** The ring is closed and runs over the corners of the box of `g` only,
      starting at (minX, minY); its first edge keeps x, and the edges alternate
      between keeping x and keeping y, so none is diagonal; every corner is
      visited. */
  ghost predicate IsBoxRing(ring: seq<Vertex>, g: Geometry) {
    && |ring| == 5
    && ring[0] == ring[4]
    && ring[0] == Vertex(g.minX, g.minY)
    && (forall i :: 0 <= i < 5 ==>
          (ring[i].x == g.minX || ring[i].x == g.maxX) && (ring[i].y == g.minY || ring[i].y == g.maxY))
    && ring[0].x == ring[1].x && ring[1].y == ring[2].y && ring[2].x == ring[3].x && ring[3].y == ring[4].y
    && (forall cx, cy :: (cx == g.minX || cx == g.maxX) && (cy == g.minY || cy == g.maxY) ==>
          Vertex(cx, cy) in ring[..4])
  }

  /** `getGeomEnvelope`: a POINT becomes the 2-D point at (minX, minY); any other
      geometry becomes the polygon whose ring walks the bounding box from
      (minX, minY) up, right, down and back, which is clockwise for a proper box. */
  function GeomEnvelope(g: Geometry): (e: Shape)
    ensures e.Point? <==> g.name == "POINT"
    ensures e.Point? ==> e.at == Vertex(g.minX, g.minY)
    ensures e.Polygon? ==> IsBoxRing(e.ring, g)
  {
    if g.name == "POINT" then Point(Vertex(g.minX, g.minY))
    else
      var ring := [Vertex(g.minX, g.minY), Vertex(g.minX, g.maxY), Vertex(g.maxX, g.maxY),
                   Vertex(g.maxX, g.minY), Vertex(g.minX, g.minY)];
      assert forall cx, cy :: (cx == g.minX || cx == g.maxX) && (cy == g.minY || cy == g.maxY) ==>
          Vertex(cx, cy) in ring[..4] by {
        assert ring[..4] == [ring[0], ring[1], ring[2], ring[3]];
      }
      Polygon(ring)
  }

  /** `IsBoxRing` leaves exactly one ring for every box, flat ones included, so
      the contract of `GeomEnvelope` decides the stored ring. */
  lemma BoxRingDetermined(ring: seq<Vertex>, g: Geometry)
    requires g.name != "POINT"
    requires IsBoxRing(ring, g)
    ensures ring == [Vertex(g.minX, g.minY), Vertex(g.minX, g.maxY), Vertex(g.maxX, g.maxY),
                     Vertex(g.maxX, g.minY), Vertex(g.minX, g.minY)]
    ensures ring == GeomEnvelope(g).ring
  {
    var a, b, c, d := g.minX, g.maxX, g.minY, g.maxY;
    assert Vertex(b, d) in ring[..4];
    assert Vertex(a, d) in ring[..4];
    assert Vertex(b, c) in ring[..4];
  }

  /** Twice the signed area of a closed ring (shoelace formula over its edges). */
  function TwiceSignedArea(ring: seq<Vertex>): int
    decreases |ring|
  {
    if |ring| < 2 then 0
    else ring[0].x * ring[1].y - ring[1].x * ring[0].y + TwiceSignedArea(ring[1..])
  }

  /** The envelope ring of a proper box is clockwise and encloses exactly the box,
      and each of its edges moves along exactly one axis. */
  lemma EnvelopeRingOrientation(g: Geometry)
    requires g.name != "POINT"
    requires g.minX < g.maxX && g.minY < g.maxY
    ensures var ring := GeomEnvelope(g).ring;
      && TwiceSignedArea(ring) == -2 * ((g.maxX - g.minX) * (g.maxY - g.minY))
      && forall i :: 0 <= i < 4 ==> (ring[i].x == ring[i + 1].x) != (ring[i].y == ring[i + 1].y)
  {
    var ring := GeomEnvelope(g).ring;
    var a, b, c, d := g.minX, g.maxX, g.minY, g.maxY;
    assert ring[4..][1..] == [];
    calc {
      TwiceSignedArea(ring);
      (a * d - a * c) + TwiceSignedArea(ring[1..]);
      { assert ring[1..][1..] == ring[2..]; }
      (a * d - a * c) + (a * d - b * d) + TwiceSignedArea(ring[2..]);
      { assert ring[2..][1..] == ring[3..]; }
      (a * d - a * c) + (a * d - b * d) + (b * c - b * d) + TwiceSignedArea(ring[3..]);
      { assert ring[3..][1..] == ring[4..]; }
      (a * d - a * c) + (a * d - b * d) + (b * c - b * d) + (b * c - a * c) + TwiceSignedArea(ring[4..]);
      2 * (a * d - a * c - b * d + b * c);
      -2 * ((b - a) * (d - c));
    }
  }

  // ---------------------------------------------------------------------------
  // WKT as written by OGR's ExportToWkt for these two shapes
  // ---------------------------------------------------------------------------

  function VertexText(v: Vertex): string {
    IntToString(v.x) + " " + IntToString(v.y)
  }

  /** The vertices, comma-separated without blanks. */
  function VerticesText(vs: seq<Vertex>): string
    decreases |vs|
  {
    if |vs| == 0 then ""
    else if |vs| == 1 then VertexText(vs[0])
    else VertexText(vs[0]) + "," + VerticesText(vs[1..])
  }

  /** `ExportToWkt()` of an envelope: `POINT (x y)` or `POLYGON ((x y,...))`. */
  function Wkt(e: Shape): (w: string)
    ensures |w| > 0
    ensures StartsWith(w, "POINT (") <==> e.Point?
  {
    match e
    case Point(v) =>
      var w := "POINT (" + VertexText(v) + ")";
      assert w[..7] == "POINT (";
      w
    case Polygon(ring) =>
      var w := "POLYGON ((" + VerticesText(ring) + "))";
      assert w[4] == 'G';
      w
  }

  /** A point at (10, 20) is written `POINT (10 20)`. */
  lemma PointWkt()
    ensures Wkt(GeomEnvelope(Geometry("POINT", 10, 10, 20, 20))) == "POINT (10 20)"
  {
    assert NatToString(10) == "10" by {
      assert NatToString(1) == "1";
      assert NatToString(0) == "0";
    }
    assert NatToString(20) == "20" by {
      assert NatToString(2) == "2";
      assert NatToString(0) == "0";
    }
  }

  // ---------------------------------------------------------------------------
  // The envelope index (getGeomDict)
  // ---------------------------------------------------------------------------

  /** An OGR feature: its `id` field and its geometry reference, if any. */
  datatype OgrFeature = OgrFeature(id: string, geom: Option<Geometry>)

  /** An OGR layer: its field names and its features, in order. */
  datatype Layer = Layer(fields: seq<string>, features: seq<OgrFeature>)

  type EnvelopeIndex = PyDict.Dict<string, string>

  /** `lyr.FindFieldIndex("id", True) != -1`. */
  predicate HasIdField(l: Layer) {
    "id" in l.fields
  }

  /** The envelope WKT the index stores for a feature with a geometry. */
  function FeatureWkt(f: OgrFeature): string
    requires f.geom.Some?
  {
    Wkt(GeomEnvelope(f.geom.value))
  }

  /** The inner loop over one layer's features: only features with a geometry
      are entered, under their `id`. The result after n features is the result
      after n - 1 features updated with the n-th. */
  function IndexFeatures(d: EnvelopeIndex, feats: seq<OgrFeature>): EnvelopeIndex
    decreases |feats|
  {
    if |feats| == 0 then d
    else
      var d' := IndexFeatures(d, feats[..|feats| - 1]);
      var f := feats[|feats| - 1];
      if f.geom.Some? then PyDict.Update(d', f.id, FeatureWkt(f)) else d'
  }

  /** The outer loop over the layers: layers without an `id` field are skipped. */
  function IndexLayers(d: EnvelopeIndex, layers: seq<Layer>): EnvelopeIndex
    decreases |layers|
  {
    if |layers| == 0 then d
    else
      var d' := IndexLayers(d, layers[..|layers| - 1]);
      var l := layers[|layers| - 1];
      if HasIdField(l) then IndexFeatures(d', l.features) else d'
  }

  /** `getGeomDict`: the index built from all layers of the source document. */
  function BuildIndex(layers: seq<Layer>): EnvelopeIndex {
    IndexLayers(PyDict.Empty(), layers)
  }

  /** The feature has a geometry and the given id. */
  predicate Carries(f: OgrFeature, id: string) {
    f.geom.Some? && f.id == id
  }

  /** Feature `j` is the last one of `feats` that carries `id`. */
  ghost predicate LastCarrierAt(feats: seq<OgrFeature>, id: string, j: int) {
    && 0 <= j < |feats| && Carries(feats[j], id)
    && forall k :: j < k < |feats| ==> !Carries(feats[k], id)
  }

  /** Feature `j` of layer `i` is entered into the index under `id`. */
  ghost predicate Entered(layers: seq<Layer>, i: int, j: int, id: string) {
    && 0 <= i < |layers| && HasIdField(layers[i])
    && 0 <= j < |layers[i].features| && Carries(layers[i].features[j], id)
  }

  /** Feature `j` of layer `i` is the last feature entered under `id`: none after
      it in its layer, none in a later layer. */
  ghost predicate LastEnteredAt(layers: seq<Layer>, id: string, i: int, j: int) {
    && Entered(layers, i, j, id)
    && (forall k :: j < k < |layers[i].features| ==> !Entered(layers, i, k, id))
    && (forall i', k :: i < i' ==> !Entered(layers, i', k, id))
  }

  /** Reference meaning of the inner loop: the envelope of the last feature with
      a geometry and this id. */
  function LastInLayer(feats: seq<OgrFeature>, id: string): Option<string>
    decreases |feats|
  {
    if |feats| == 0 then None
    else
      var f := feats[|feats| - 1];
      if Carries(f, id) then Some(FeatureWkt(f))
      else LastInLayer(feats[..|feats| - 1], id)
  }

  lemma {:induction false} LastInLayerMeaning(feats: seq<OgrFeature>, id: string)
    ensures LastInLayer(feats, id).None? <==> forall j :: 0 <= j < |feats| ==> !Carries(feats[j], id)
    ensures LastInLayer(feats, id).Some? ==>
      exists j :: LastCarrierAt(feats, id, j) && LastInLayer(feats, id).value == FeatureWkt(feats[j])
    decreases |feats|
  {
    if |feats| > 0 {
      var n := |feats| - 1;
      LastInLayerMeaning(feats[..n], id);
      if Carries(feats[n], id) {
        assert LastCarrierAt(feats, id, n);
      } else if LastInLayer(feats[..n], id).Some? {
        var j :| LastCarrierAt(feats[..n], id, j) && LastInLayer(feats[..n], id).value == FeatureWkt(feats[..n][j]);
        LastCarrierExtends(feats, id, j);
      } else {
        NoCarrierExtends(feats, feats[..n], id);
      }
    }
  }

  /** The last carrier of a prefix stays the last carrier when the final feature
      does not carry the id. */
  lemma LastCarrierExtends(feats: seq<OgrFeature>, id: string, j: int)
    requires |feats| > 0 && !Carries(feats[|feats| - 1], id)
    requires LastCarrierAt(feats[..|feats| - 1], id, j)
    ensures LastCarrierAt(feats, id, j) && feats[..|feats| - 1][j] == feats[j]
  {
    var pre := feats[..|feats| - 1];
    forall k | j < k < |feats|
      ensures !Carries(feats[k], id)
    {
      if k < |pre| {
        assert pre[k] == feats[k];
      }
    }
  }

  /** No carrier in a prefix and none at the end means no carrier at all. */
  lemma NoCarrierExtends(feats: seq<OgrFeature>, pre: seq<OgrFeature>, id: string)
    requires |feats| > 0 && pre == feats[..|feats| - 1] && !Carries(feats[|feats| - 1], id)
    requires forall j :: 0 <= j < |pre| ==> !Carries(pre[j], id)
    ensures forall j :: 0 <= j < |feats| ==> !Carries(feats[j], id)
  {
    forall j | 0 <= j < |feats|
      ensures !Carries(feats[j], id)
    {
      if j < |pre| {
        assert pre[j] == feats[j];
      }
    }
  }

  /** Reference meaning of the whole index: the envelope of the last entered
      feature with this id, in the driver's iteration order (layer by layer, then
      feature by feature within a layer). */
  function LastEntered(layers: seq<Layer>, id: string): Option<string>
    decreases |layers|
  {
    if |layers| == 0 then None
    else
      var l := layers[|layers| - 1];
      var here := if HasIdField(l) then LastInLayer(l.features, id) else None;
      if here.Some? then here else LastEntered(layers[..|layers| - 1], id)
  }

  lemma {:induction false} GetIndexFeatures(d: EnvelopeIndex, feats: seq<OgrFeature>, id: string)
    ensures PyDict.Get(IndexFeatures(d, feats), id)
         == if LastInLayer(feats, id).Some? then LastInLayer(feats, id) else PyDict.Get(d, id)
    decreases |feats|
  {
    if |feats| > 0 {
      var n := |feats| - 1;
      GetIndexFeatures(d, feats[..n], id);
      if feats[n].geom.Some? {
        PyDict.GetUpdate(IndexFeatures(d, feats[..n]), feats[n].id, FeatureWkt(feats[n]), id);
      }
    }
  }

  lemma {:induction false} GetIndexLayers(d: EnvelopeIndex, layers: seq<Layer>, id: string)
    ensures PyDict.Get(IndexLayers(d, layers), id)
         == if LastEntered(layers, id).Some? then LastEntered(layers, id) else PyDict.Get(d, id)
    decreases |layers|
  {
    if |layers| > 0 {
      var n := |layers| - 1;
      GetIndexLayers(d, layers[..n], id);
      if HasIdField(layers[n]) {
        GetIndexFeatures(IndexLayers(d, layers[..n]), layers[n].features, id);
      }
    }
  }

  /** What `LastEntered` means: absent exactly when no feature was entered under
      `id`; otherwise the envelope of the last feature entered under `id`. */
  lemma {:induction false} LastEnteredMeaning(layers: seq<Layer>, id: string)
    ensures LastEntered(layers, id).None? <==> forall i, j :: !Entered(layers, i, j, id)
    ensures LastEntered(layers, id).Some? ==>
      exists i, j :: LastEnteredAt(layers, id, i, j)
        && LastEntered(layers, id).value == FeatureWkt(layers[i].features[j])
    decreases |layers|
  {
    if |layers| > 0 {
      var n := |layers| - 1;
      var pre := layers[..n];
      var l := layers[n];
      LastEnteredMeaning(pre, id);
      LastInLayerMeaning(l.features, id);
      assert forall i, j :: i != n ==> (Entered(layers, i, j, id) <==> Entered(pre, i, j, id));
      var here := if HasIdField(l) then LastInLayer(l.features, id) else None;
      if here.Some? {
        var j :| LastCarrierAt(l.features, id, j) && here.value == FeatureWkt(l.features[j]);
        assert LastEnteredAt(layers, id, n, j);
      } else {
        assert forall j :: !Entered(layers, n, j, id);
        if LastEntered(pre, id).Some? {
          var i, j :| LastEnteredAt(pre, id, i, j)
            && LastEntered(pre, id).value == FeatureWkt(pre[i].features[j]);
          assert LastEnteredAt(layers, id, i, j);
        }
      }
    }
  }

  /** The envelope index holds `id` exactly when some feature with that id and a
      geometry lies in a layer with an `id` field, and then it holds the non-empty
      envelope WKT of the last such feature in layer order, then feature order
      within the layer (the driver's iteration order, not document order). */
  lemma IndexLookup(layers: seq<Layer>, id: string)
    ensures var w := PyDict.Get(BuildIndex(layers), id);
      && (w.None? <==> forall i, j :: !Entered(layers, i, j, id))
      && (w.Some? ==> |w.value| > 0)
      && (w.Some? ==>
            exists i, j :: LastEnteredAt(layers, id, i, j)
              && w.value == FeatureWkt(layers[i].features[j]))
  {
    GetIndexLayers(PyDict.Empty(), layers, id);
    LastEnteredMeaning(layers, id);
  }
}

=== FILE: feature.dfy ===
/** `GmlLoader.loadGml` up to the point where it executes its statement: from one
    serialised feature element to the row it inserts and the SQL text it builds. */
module FeatureLoad {
  import opened Wrappers
  import opened Text
  import PyDict
  import TypeRegistry
  import Envelope

  /** What lxml makes of one feature element: the root's qualified tag
      (`{namespace}Local`), the values of its `gml:id` attribute (the root's `@gml:id`,
      empty when absent), and `etree.tostring` of the parsed tree. */
  datatype Node = Node(tag: string, ids: seq<string>, text: string)

  /** The loader's configuration: database schema, and the CRS notation used in
      the GML file and the one the feature store needs. */
  datatype Settings = Settings(schema: string, sourceEpsg: string, descEpsg: string)

  /** The ways `loadGml` raises before reaching its `try`; none is caught. */
  datatype LoadError =
    | ParseError         // etree.fromstring rejects the text
    | MissingIdentifier  // gmlIdList[0] on an element without gml:id
    | MissingNamespace   // tag.split("}")[1] on a tag without a namespace

  /** One row of `gml_objects`: `gml_id`, `ft_type` (None on a registry miss),
      `binary_object`, and `gml_bounded_by` when an envelope exists. */
  datatype Record = Record(gmlId: string, code: Option<int>, payload: string, envelope: Option<string>)

  /** The element text as parsed: every `sourceEpsg` replaced by `descEpsg`. */
  function SubstituteCrs(cfg: Settings, element: string): string {
    Replace(element, cfg.sourceEpsg, cfg.descEpsg)
  }

  /** `if geomWkt:` — an index entry counts only if it is a non-empty string. */
  function EnvelopeFor(index: Envelope.EnvelopeIndex, gmlId: string): (w: Option<string>)
    ensures w.Some? <==> PyDict.Get(index, gmlId).Some? && PyDict.Get(index, gmlId).value != ""
    ensures w.Some? ==> w == PyDict.Get(index, gmlId)
  {
    var found := PyDict.Get(index, gmlId);
    if found.Some? && found.value != "" then found else None
  }

  /** `loadGml` before `execute`: substitute the CRS notation, parse, take the
      first `gml:id`, resolve the local tag name against the registry (a miss is
      not an error), normalise the serialised payload and attach the envelope. */
  function Transform(cfg: Settings, registry: TypeRegistry.Registry, index: Envelope.EnvelopeIndex,
                     parse: string -> Option<Node>, element: string): (r: Result<Record, LoadError>)
    ensures r.Ok? <==> var node := parse(SubstituteCrs(cfg, element));
      node.Some? && |node.value.ids| > 0 && '}' in node.value.tag
    ensures r.Ok? ==> var node := parse(SubstituteCrs(cfg, element)).value;
      && r.value.gmlId == node.ids[0]
      && r.value.code == PyDict.Get(registry, TypeRegistry.LocalName(node.tag).value)
      && r.value.payload == NormalisePayload(node.text)
      && r.value.envelope == EnvelopeFor(index, node.ids[0])
  {
    match parse(SubstituteCrs(cfg, element))
    case None => Err(ParseError)
    case Some(node) =>
      if |node.ids| == 0 then Err(MissingIdentifier)
      else
        match TypeRegistry.LocalName(node.tag)
        case None => Err(MissingNamespace)
        case Some(local) =>
          var gmlId := node.ids[0];
          Ok(Record(gmlId, PyDict.Get(registry, local), NormalisePayload(node.text), EnvelopeFor(index, gmlId)))
  }

  /** Which error `loadGml` raises first: parsing, then the identifier, then the tag. */
  lemma TransformErrors(cfg: Settings, registry: TypeRegistry.Registry, index: Envelope.EnvelopeIndex,
                        parse: string -> Option<Node>, element: string)
    ensures var node := parse(SubstituteCrs(cfg, element));
      var r := Transform(cfg, registry, index, parse, element);
      && (node.None? <==> r == Err(ParseError))
      && (node.Some? && |node.value.ids| == 0 <==> r == Err(MissingIdentifier))
      && (node.Some? && |node.value.ids| > 0 && '}' !in node.value.tag <==> r == Err(MissingNamespace))
  {
  }

  /** The CRS substitution leaves an element without the source notation unchanged. */
  lemma SubstituteCrsAbsent(cfg: Settings, element: string)
    requires |cfg.sourceEpsg| > 0 && !Occurs(element, cfg.sourceEpsg)
    ensures SubstituteCrs(cfg, element) == element
  {
    ReplaceAbsent(element, cfg.sourceEpsg, cfg.descEpsg);
  }

  /** The stored payload is one line, has no backslash, and un-doubling its
      quotes yields the minified serialisation with backslashes as slashes. */
  lemma TransformPayload(cfg: Settings, registry: TypeRegistry.Registry, index: Envelope.EnvelopeIndex,
                         parse: string -> Option<Node>, element: string)
    requires Transform(cfg, registry, index, parse, element).Ok?
    ensures var rec := Transform(cfg, registry, index, parse, element).value;
      var text := parse(SubstituteCrs(cfg, element)).value.text;
      && '\n' !in rec.payload && '\\' !in rec.payload
      && |rec.payload| == |Minify(text)| + CountChar(Minify(text), '\'')
      && CollapseQuotes(rec.payload) == SlashBackslashes(Minify(text))
  {
    NormalisePayloadProperties(parse(SubstituteCrs(cfg, element)).value.text);
  }

  /** With the registry built from the type rows and the index built from the
      document's layers: the code is None exactly when no row has the feature's
      local name, and an envelope is attached exactly when some feature with the
      same id and a geometry lies in a layer with an `id` field. */
  lemma TransformAgainstSources(cfg: Settings, rows: seq<TypeRegistry.TypeRow>, layers: seq<Envelope.Layer>,
                                parse: string -> Option<Node>, element: string)
    requires TypeRegistry.WellFormed(rows)
    requires Transform(cfg, TypeRegistry.Build(rows).value, Envelope.BuildIndex(layers), parse, element).Ok?
    ensures var rec := Transform(cfg, TypeRegistry.Build(rows).value, Envelope.BuildIndex(layers), parse, element).value;
      var local := TypeRegistry.LocalName(parse(SubstituteCrs(cfg, element)).value.tag).value;
      && (rec.code.None? <==>
            forall i :: 0 <= i < |rows| ==> TypeRegistry.LocalName(rows[i].qualifiedName) != Some(local))
      && (rec.envelope.Some? <==> exists i, j :: Envelope.Entered(layers, i, j, rec.gmlId))
      && (rec.envelope.Some? ==>
            exists i, j :: Envelope.LastEnteredAt(layers, rec.gmlId, i, j)
              && rec.envelope.value == Envelope.FeatureWkt(layers[i].features[j]))
  {
    var rec := Transform(cfg, TypeRegistry.Build(rows).value, Envelope.BuildIndex(layers), parse, element).value;
    var local := TypeRegistry.LocalName(parse(SubstituteCrs(cfg, element)).value.tag).value;
    TypeRegistry.ResolveFromRows(rows, local);
    Envelope.IndexLookup(layers, rec.gmlId);
  }

  // ---------------------------------------------------------------------------
  // The INSERT statement
  // ---------------------------------------------------------------------------

  /** `str(intType)`: the decimal code, or the text `None` on a registry miss. */
  function CodeText(code: Option<int>): (t: string)
    ensures |t| > 0
  {
    match code
    case None => "None"
    case Some(c) => IntToString(c)
  }

  /** The SQL text keeps registry misses apart from every code: `None` never
      prints like an integer, and distinct codes print differently. */
  lemma CodeTextInjective(a: Option<int>, b: Option<int>)
    ensures CodeText(a) == CodeText(b) ==> a == b
  {
    if a.Some? { IntToStringRoundTrip(a.value); }
    if b.Some? { IntToStringRoundTrip(b.value); }
    if a.Some? && b.Some? { IntToStringInjective(a.value, b.value); }
  }

  function TableName(schema: string): string {
    "INSERT INTO " + schema + ".gml_objects (gml_id,ft_type,binary_object"
  }

  /** Start of the 4-column insert. */
  function Head4(schema: string): string {
    TableName(schema) + ",gml_bounded_by) VALUES ('"
  }

  /** Start of the 3-column insert. */
  function Head3(schema: string): string {
    TableName(schema) + ") VALUES ('"
  }

  /** The quoted values common to both variants, up to the payload. */
  function Values(rec: Record): string {
    rec.gmlId + "'," + CodeText(rec.code) + ",'" + rec.payload
  }

  /** The close of the 4-column insert: the envelope passed to `ST_GeomFromText`. */
  function GeomTail(wkt: string): string {
    "',ST_GeomFromText('" + wkt + "'))"
  }

  /** The statement `loadGml` executes for a record. */
  function InsertSql(schema: string, rec: Record): string {
    match rec.envelope
    case Some(wkt) => Head4(schema) + Values(rec) + GeomTail(wkt)
    case None => Head3(schema) + Values(rec) + "')"
  }

  predicate EndsWith(s: string, p: string) {
    |p| <= |s| && s[|s| - |p|..] == p
  }

  lemma StartsWithConcat(p: string, q: string)
    ensures StartsWith(p + q, p)
  {
    assert (p + q)[..|p|] == p;
  }

  lemma EndsWithConcat(p: string, q: string)
    ensures EndsWith(p + q, q)
  {
    assert (p + q)[|p + q| - |q|..] == q;
  }

  /** Text that starts with `a` cannot start with `b` if they differ at `n`. */
  lemma NotStartsWithAt(a: string, x: string, b: string, n: nat)
    requires n < |a| && n < |b| && a[n] != b[n]
    ensures !StartsWith(a + x, b)
  {
  }

  /** The 4-column insert (with `ST_GeomFromText` of the envelope WKT) is built
      exactly when the record has an envelope, and the 3-column insert exactly
      when it has none. */
  lemma InsertVariant(schema: string, rec: Record)
    ensures StartsWith(InsertSql(schema, rec), Head4(schema)) <==> rec.envelope.Some?
    ensures StartsWith(InsertSql(schema, rec), Head3(schema)) <==> rec.envelope.None?
  {
    var n := |TableName(schema)|;
    assert Head4(schema)[n] == ',';
    assert Head3(schema)[n] == ')';
    match rec.envelope
    case Some(wkt) =>
      var tail := Values(rec) + GeomTail(wkt);
      assert InsertSql(schema, rec) == Head4(schema) + tail;
      StartsWithConcat(Head4(schema), tail);
      NotStartsWithAt(Head4(schema), tail, Head3(schema), n);
    case None =>
      var tail := Values(rec) + "')";
      assert InsertSql(schema, rec) == Head3(schema) + tail;
      StartsWithConcat(Head3(schema), tail);
      NotStartsWithAt(Head3(schema), tail, Head4(schema), n);
  }

  /** `b` sits right after `a` in `a + b + c`, which ends with `c`. */
  lemma Framed(a: string, b: string, c: string)
    ensures |a| + |b| <= |a + b + c|
    ensures (a + b + c)[|a|..|a| + |b|] == b
    ensures EndsWith(a + b + c, c)
  {
    assert (a + b + c)[|a + b + c| - |c|..] == c;
  }

  /** Both variants carry `gml_id`, `str(intType)` and the payload verbatim right
      after their header; the 4-column one closes with the `ST_GeomFromText`
      call on the envelope WKT, the 3-column one right after the payload. */
  lemma InsertEmbedsValues(schema: string, rec: Record)
    ensures var sql := InsertSql(schema, rec);
      var head := if rec.envelope.Some? then Head4(schema) else Head3(schema);
      && |head| + |Values(rec)| <= |sql|
      && sql[|head|..|head| + |Values(rec)|] == Values(rec)
    ensures rec.envelope.Some? ==> EndsWith(InsertSql(schema, rec), GeomTail(rec.envelope.value))
    ensures rec.envelope.None? ==> EndsWith(InsertSql(schema, rec), "')")
    ensures var head := if rec.envelope.Some? then Head4(schema) else Head3(schema);
      var tail := if rec.envelope.Some? then GeomTail(rec.envelope.value) else "')";
      |InsertSql(schema, rec)| == |head| + |Values(rec)| + |tail|
  {
    match rec.envelope
    case Some(wkt) =>
      Framed(Head4(schema), Values(rec), GeomTail(wkt));
    case None =>
      Framed(Head3(schema), Values(rec), "')");
  }
}

=== FILE: pydict.dfy ===
/** The part of Python's `dict` the loader uses: an insertion-ordered table of
    items with distinct keys, `d.update({k: v})`, and the
    `for key, value in d.items(): if key == k: ...; break` scan that the loader
    writes instead of a lookup. */
module PyDict {
  import opened Wrappers

  /** A dict as its items, in insertion order. */
  datatype Dict<K(==), V> = Dict(items: seq<(K, V)>)

  /** The keys of the items are pairwise distinct. */
  ghost predicate Valid<K, V>(d: Dict<K, V>) {
    forall i, j :: 0 <= i < j < |d.items| ==> d.items[i].0 != d.items[j].0
  }

  function Empty<K(==), V>(): (d: Dict<K, V>)
    ensures Valid(d)
  {
    Dict([])
  }

  /** Position of the first item whose key is `k`, or -1. */
  function IndexOf<K(==), V>(items: seq<(K, V)>, k: K): (i: int)
    ensures -1 <= i < |items|
    ensures i >= 0 ==> items[i].0 == k && forall j :: 0 <= j < i ==> items[j].0 != k
    ensures i == -1 <==> forall j :: 0 <= j < |items| ==> items[j].0 != k
    decreases |items|
  {
    if |items| == 0 then -1
    else if items[0].0 == k then 0
    else
      var j := IndexOf(items[1..], k);
      if j == -1 then -1 else j + 1
  }

  /** `d.update({k: v})`: an existing key keeps its position and takes the new
      value; a new key is appended. */
  function Update<K(==), V>(d: Dict<K, V>, k: K, v: V): (r: Dict<K, V>)
    ensures Valid(d) ==> Valid(r)
    ensures |r.items| == |d.items| || |r.items| == |d.items| + 1
  {
    var i := IndexOf(d.items, k);
    if i >= 0 then Dict(d.items[i := (k, v)]) else Dict(d.items + [(k, v)])
  }

  /** `d[k]` if present, else `None`: the value of the first item with key `k`. */
  function Get<K(==), V>(d: Dict<K, V>, k: K): (r: Option<V>)
    ensures r.None? <==> forall j :: 0 <= j < |d.items| ==> d.items[j].0 != k
    ensures r.Some? ==> exists j :: 0 <= j < |d.items| && d.items[j] == (k, r.value)
  {
    var i := IndexOf(d.items, k);
    if i >= 0 then Some(d.items[i].1) else None
  }

  /** Lookup positions depend on the keys alone. */
  lemma {:induction false} IndexOfSameKeys<K, V>(a: seq<(K, V)>, b: seq<(K, V)>, k: K)
    requires |a| == |b| && forall j :: 0 <= j < |a| ==> a[j].0 == b[j].0
    ensures IndexOf(a, k) == IndexOf(b, k)
    decreases |a|
  {
    if |a| > 0 {
      IndexOfSameKeys(a[1..], b[1..], k);
    }
  }

  /** Appending an item can only add a lookup position at the end. */
  lemma {:induction false} IndexOfAppend<K, V>(a: seq<(K, V)>, x: (K, V), k: K)
    ensures IndexOf(a + [x], k) == if IndexOf(a, k) >= 0 then IndexOf(a, k) else if x.0 == k then |a| else -1
    decreases |a|
  {
    if |a| > 0 {
      assert (a + [x])[1..] == a[1..] + [x];
      IndexOfAppend(a[1..], x, k);
    } else {
      assert (a + [x])[1..] == [];
    }
  }

  /** After an update the key maps to the new value and no other key changes. */
  lemma GetUpdate<K, V>(d: Dict<K, V>, k: K, v: V, k': K)
    ensures Get(Update(d, k, v), k') == if k' == k then Some(v) else Get(d, k')
  {
    var i := IndexOf(d.items, k);
    var r := Update(d, k, v);
    if i >= 0 {
      IndexOfSameKeys(d.items, r.items, k');
    } else {
      IndexOfAppend(d.items, (k, v), k');
    }
  }

  /** The loader's scan over `d.items()` that stops at the first key equal to `k`. */
  method Find<K(==), V>(d: Dict<K, V>, k: K) returns (found: Option<V>)
    ensures found == Get(d, k)
  {
    found := None;
    var i := 0;
    while i < |d.items|
      invariant 0 <= i <= |d.items|
      invariant forall j :: 0 <= j < i ==> d.items[j].0 != k
      invariant found == None
    {
      if d.items[i].0 == k {
        found := Some(d.items[i].1);
        assert IndexOf(d.items, k) == i;
        return;
      }
      i := i + 1;
    }
  }

  /** Applies `d.update({k: v})` for each pair in order. */
  function UpdateAll<K(==), V>(d: Dict<K, V>, kvs: seq<(K, V)>): (r: Dict<K, V>)
    ensures Valid(d) ==> Valid(r)
    decreases |kvs|
  {
    if |kvs| == 0 then d
    else Update(UpdateAll(d, kvs[..|kvs| - 1]), kvs[|kvs| - 1].0, kvs[|kvs| - 1].1)
  }

  /** Reference meaning of a run of updates: the value paired with the last
      occurrence of `k` among the pairs, if any. */
  function LastValue<K(==), V>(kvs: seq<(K, V)>, k: K): (r: Option<V>)
    ensures r.None? <==> forall j :: 0 <= j < |kvs| ==> kvs[j].0 != k
    ensures r.Some? ==> exists i :: 0 <= i < |kvs| && kvs[i] == (k, r.value)
                          && forall j :: i < j < |kvs| ==> kvs[j].0 != k
    decreases |kvs|
  {
    if |kvs| == 0 then None
    else if kvs[|kvs| - 1].0 == k then Some(kvs[|kvs| - 1].1)
    else LastValue(kvs[..|kvs| - 1], k)
  }

  /** After a run of updates a key holds the value of its last update, and a key
      never updated keeps what it had. */
  lemma {:induction false} GetUpdateAll<K, V>(d: Dict<K, V>, kvs: seq<(K, V)>, k: K)
    ensures Get(UpdateAll(d, kvs), k)
         == if LastValue(kvs, k).Some? then LastValue(kvs, k) else Get(d, k)
    decreases |kvs|
  {
    if |kvs| > 0 {
      var n := |kvs| - 1;
      GetUpdateAll(d, kvs[..n], k);
      GetUpdate(UpdateAll(d, kvs[..n]), kvs[n].0, kvs[n].1, k);
    }
  }

  /** Updating with a concatenation is updating with each part in turn. */
  lemma {:induction false} UpdateAllConcat<K, V>(d: Dict<K, V>, a: seq<(K, V)>, b: seq<(K, V)>)
    ensures UpdateAll(d, a + b) == UpdateAll(UpdateAll(d, a), b)
    decreases |b|
  {
    if |b| == 0 {
      assert a + b == a;
    } else {
      var n := |b| - 1;
      assert (a + b)[..|a + b| - 1] == a + b[..n];
      assert (a + b)[|a + b| - 1] == b[n];
      UpdateAllConcat(d, a, b[..n]);
    }
  }
}

=== FILE: registry.dfy ===
/** The feature-type registry `GmlLoader.__codeList`: built once from the rows of
    `feature_types`, keyed by the local part of each qualified type name. */
module TypeRegistry {
  import opened Wrappers
  import opened Text
  import PyDict

  /** A row of `feature_types` as the loader reads it: `row[0]` is the type code,
      `row[1]` the qualified name, e.g. `{urn:x-inspire:tn-ro}RoadLink`. */
  datatype TypeRow = TypeRow(code: int, qualifiedName: string)

  /** Local type name -> type code, in insertion order. */
  type Registry = PyDict.Dict<string, int>

  /** `name.split("}")[1]`: the text between the first and the second `}`
      (or the end); `None` where indexing raises IndexError, i.e. without `}`. */
  function LocalName(name: string): (r: Option<string>)
    ensures r.None? <==> '}' !in name
    ensures r.Some? ==> '}' !in r.value
  {
    var parts := Split(name, '}');
    if |parts| >= 2 then Some(parts[1]) else None
  }

  /** The local name is exactly the segment after the first `}`, whatever follows
      a second `}`. */
  lemma LocalNameSegment(a: string, b: string, rest: string)
    requires '}' !in a && '}' !in b
    requires |rest| == 0 || rest[0] == '}'
    ensures LocalName(a + "}" + b + rest) == Some(b)
  {
    var t := "}" + b + rest;
    assert a + "}" + b + rest == a + t;
    SplitPrefix(a, t, '}');
    assert t[1..] == b + rest;
    SplitPrefix(b, rest, '}');
    assert Split(rest, '}')[0] == "" by {
      if |rest| > 0 {
        assert rest == [rest[0]] + rest[1..];
      }
    }
    assert b + "" == b;
  }

  /** A well-formed `{namespace}Local` name yields `Local`. */
  lemma LocalNameOfQualified(ns: string, local: string)
    requires '}' !in ns && '}' !in local
    ensures LocalName("{" + ns + "}" + local) == Some(local)
  {
    assert '}' !in "{" + ns;
    LocalNameSegment("{" + ns, local, "");
    assert "{" + ns + "}" + local + "" == "{" + ns + "}" + local;
  }

  /** Every row's qualified name contains a `}`. */
  ghost predicate WellFormed(rows: seq<TypeRow>) {
    forall i :: 0 <= i < |rows| ==> '}' in rows[i].qualifiedName
  }

  /** The (local name, code) pairs of well-formed rows, in row order. */
  function Entries(rows: seq<TypeRow>): (kvs: seq<(string, int)>)
    requires WellFormed(rows)
    ensures |kvs| == |rows|
    ensures forall i :: 0 <= i < |rows| ==>
      kvs[i] == (LocalName(rows[i].qualifiedName).value, rows[i].code)
    decreases |rows|
  {
    if |rows| == 0 then []
    else Entries(rows[..|rows| - 1])
         + [(LocalName(rows[|rows| - 1].qualifiedName).value, rows[|rows| - 1].code)]
  }

  /** The constructor's loop over `rows`, starting from dict `d`: each row is
      `update`d under its local name; a row without `}` raises, which the
      constructor's `except` turns into the end of the run (`None`). */
  function BuildFrom(d: Registry, rows: seq<TypeRow>): (r: Option<Registry>)
    ensures r.None? <==> !WellFormed(rows)
    ensures PyDict.Valid(d) && r.Some? ==> PyDict.Valid(r.value)
    decreases |rows|
  {
    if |rows| == 0 then Some(d)
    else
      assert WellFormed(rows) <==> '}' in rows[0].qualifiedName && WellFormed(rows[1..]) by {
        assert forall i :: 1 <= i < |rows| ==> rows[i] == rows[1..][i - 1];
      }
      match LocalName(rows[0].qualifiedName)
      case None => None
      case Some(local) => BuildFrom(PyDict.Update(d, local, rows[0].code), rows[1..])
  }

  /** The row loop performs exactly the updates listed by `Entries`, in order. */
  lemma {:induction false} BuildFromIsUpdateAll(d: Registry, rows: seq<TypeRow>)
    requires WellFormed(rows)
    ensures BuildFrom(d, rows) == Some(PyDict.UpdateAll(d, Entries(rows)))
    decreases |rows|
  {
    if |rows| > 0 {
      var local := LocalName(rows[0].qualifiedName).value;
      var head := [(local, rows[0].code)];
      assert WellFormed(rows[1..]) by {
        assert forall i :: 0 <= i < |rows[1..]| ==> rows[1..][i] == rows[i + 1];
      }
      BuildFromIsUpdateAll(PyDict.Update(d, local, rows[0].code), rows[1..]);
      assert Entries(rows) == head + Entries(rows[1..]);
      PyDict.UpdateAllConcat(d, head, Entries(rows[1..]));
      assert PyDict.UpdateAll(d, head) == PyDict.Update(d, local, rows[0].code) by {
        assert head[..0] == [];
      }
    }
  }

  /** The registry of a run. */
  function Build(rows: seq<TypeRow>): (r: Option<Registry>)
    ensures r.None? <==> !WellFormed(rows)
    ensures r.Some? ==> PyDict.Valid(r.value)
  {
    BuildFrom(PyDict.Empty(), rows)
  }

  /** Type resolution against a built registry: a name is found exactly when some
      row has that local name, and then it yields the code of the LAST such row,
      since `dict.update` overwrites. */
  lemma ResolveFromRows(rows: seq<TypeRow>, name: string)
    requires WellFormed(rows)
    ensures var code := PyDict.Get(Build(rows).value, name);
      && (code.None? <==> forall i :: 0 <= i < |rows| ==> LocalName(rows[i].qualifiedName) != Some(name))
      && (code.Some? ==>
            exists i :: 0 <= i < |rows|
              && LocalName(rows[i].qualifiedName) == Some(name) && rows[i].code == code.value
              && forall j :: i < j < |rows| ==> LocalName(rows[j].qualifiedName) != Some(name))
  {
    var kvs := Entries(rows);
    BuildFromIsUpdateAll(PyDict.Empty(), rows);
    PyDict.GetUpdateAll(PyDict.Empty(), kvs, name);
  }
}

=== FILE: session.dfy ===
/** The load lifecycle driven by `main()`: construct the loader (registry and
    envelope index), delete the table, load every feature member in document
    order inside one transaction, commit once, close, vacuum.

    The database is modelled as the rows committed to `gml_objects`, the rows
    inserted but not yet committed, and the log of statements issued, a statement
    that raised included. Whether a statement succeeds is an injected outcome
    (`Faults`). */
module LoadSession {
  import opened Wrappers
  import TypeRegistry
  import Envelope
  import opened FeatureLoad

  /** Why a run ended early. */
  datatype Fault =
    | ConnectionFailed            // connect or the feature_types read failed in the constructor
    | DeleteFailed                // DELETE, ALTER SEQUENCE or their commit failed
    | DocumentUnreadable          // etree.parse of the source file raised
    | FeatureRejected(error: LoadError)  // loadGml raised before executing its insert
    | InsertFailed(gmlId: string) // executing the insert failed
    | CommitFailed                // the commit after the loop raised
    | VacuumFailed

  /** The phases of a run; `Failed` is absorbing (the process has exited). */
  datatype Phase = Idle | Connected | Cleared | Loading | Committed | Closed | Maintained | Failed(fault: Fault)

  /** Statements issued to the store, in order. A statement that raised is
      logged as well, followed by what the error handler issued. */
  datatype Event = SelectTypes | DeleteRows | RestartSequence | Commit | Insert(row: Record) | Rollback | Close | Vacuum

  datatype Session = Session(phase: Phase, committed: seq<Record>, pending: seq<Record>, log: seq<Event>)

  /** Injected outcomes: whether connecting, reading `feature_types`, the
      DELETE, the ALTER SEQUENCE, the commit after them, parsing the source
      document, the final commit and the vacuum succeed, and the positions (in
      document order) of the features whose insert fails. */
  datatype Faults = Faults(connectOk: bool, readOk: bool, deleteOk: bool, restartOk: bool, deleteCommitOk: bool,
                           documentOk: bool, failingInserts: set<nat>, commitOk: bool, vacuumOk: bool)

  /** The inputs of one run: the configuration, the rows of `feature_types`, the
      layers the GMLAS driver exposes, the children of each `gml:featureMember`
      serialised as text, and lxml's parser. */
  datatype Job = Job(cfg: Settings, typeRows: seq<TypeRegistry.TypeRow>, layers: seq<Envelope.Layer>,
                     members: seq<seq<string>>, parse: string -> Option<Node>)

  /** `r.log` extends `s.log` with statements none of which is a commit. */
  ghost predicate ExtendsWithoutCommit(s: Session, r: Session) {
    |s.log| <= |r.log| && r.log[..|s.log|] == s.log && Commit !in r.log[|s.log|..]
  }

  // ---------------------------------------------------------------------------
  // Transitions
  // ---------------------------------------------------------------------------

  /** The constructor: connect, then `SELECT` the rows of `feature_types` into
      the registry. If the connect itself fails the `except` branch's
      `closeConnection` raises on the missing cursor, so nothing is issued; if
      the read fails, or a qualified name has no `}`, the connection is closed.
      Either way the run ends. */
  function Open(s: Session, connectOk: bool, readOk: bool, rows: seq<TypeRegistry.TypeRow>): (r: Session)
    ensures s.phase.Failed? ==> r == s
    ensures !s.phase.Failed? ==>
      (r.phase == Connected <==> connectOk && readOk && TypeRegistry.WellFormed(rows))
      && (r.phase != Connected ==> r.phase == Failed(ConnectionFailed))
    ensures r.committed == s.committed && r.pending == s.pending
    ensures !s.phase.Failed? && !connectOk ==> r.log == s.log
    ensures !s.phase.Failed? && connectOk && r.phase.Failed? ==> r.log == s.log + [SelectTypes, Close]
    ensures r.phase == Connected ==> r.log == s.log + [SelectTypes]
  {
    if s.phase.Failed? then s
    else if !connectOk then s.(phase := Failed(ConnectionFailed))
    else if readOk && TypeRegistry.Build(rows).Some? then s.(phase := Connected, log := s.log + [SelectTypes])
    else s.(phase := Failed(ConnectionFailed), log := s.log + [SelectTypes, Close])
  }

  /** `deleteDatabase`: DELETE plus sequence restart, committed at once; the
      first statement that raises is followed by a rollback, close and exit,
      leaving the table as it was. */
  function Clear(s: Session, deleteOk: bool, restartOk: bool, commitOk: bool): (r: Session)
    ensures s.phase.Failed? ==> r == s
    ensures !s.phase.Failed? ==> (r.phase == Cleared <==> deleteOk && restartOk && commitOk)
    ensures !s.phase.Failed? && r.phase == Cleared ==>
      r.committed == [] && r.pending == [] && r.log == s.log + [DeleteRows, RestartSequence, Commit]
    ensures !s.phase.Failed? && r.phase != Cleared ==>
      r.phase == Failed(DeleteFailed) && r.committed == s.committed && r.pending == []
    ensures !s.phase.Failed? && !deleteOk ==> r.log == s.log + [DeleteRows, Rollback, Close]
    ensures !s.phase.Failed? && deleteOk && !restartOk ==>
      r.log == s.log + [DeleteRows, RestartSequence, Rollback, Close]
    ensures !s.phase.Failed? && deleteOk && restartOk && !commitOk ==>
      r.log == s.log + [DeleteRows, RestartSequence, Commit, Rollback, Close]
  {
    if s.phase.Failed? then s
    else if !deleteOk then Session(Failed(DeleteFailed), s.committed, [], s.log + [DeleteRows, Rollback, Close])
    else if !restartOk then
      Session(Failed(DeleteFailed), s.committed, [], s.log + [DeleteRows, RestartSequence, Rollback, Close])
    else if !commitOk then
      Session(Failed(DeleteFailed), s.committed, [], s.log + [DeleteRows, RestartSequence, Commit, Rollback, Close])
    else Session(Cleared, [], [], s.log + [DeleteRows, RestartSequence, Commit])
  }

  /** One `loadGml` call on a transformed feature: a successful insert joins the
      open transaction; a failing insert rolls back everything uncommitted,
      closes and exits; a feature that raised before its insert ends the process,
      which drops the uncommitted transaction as well. */
  function Load(s: Session, feature: Result<Record, LoadError>, insertOk: bool): (r: Session)
    ensures s.phase.Failed? ==> r == s
    ensures r.committed == s.committed
    ensures ExtendsWithoutCommit(s, r)
    ensures !s.phase.Failed? ==>
      (r.phase.Failed? <==> !(feature.Ok? && insertOk))
      && (r.phase.Failed? ==> r.pending == [])
      && (!r.phase.Failed? ==> r.pending == s.pending + [feature.value])
    ensures !s.phase.Failed? && feature.Err? ==> r.log == s.log
    ensures !s.phase.Failed? && feature.Ok? && insertOk ==> r.log == s.log + [Insert(feature.value)]
    ensures !s.phase.Failed? && feature.Ok? && !insertOk ==> r.log == s.log + [Insert(feature.value), Rollback, Close]
  {
    if s.phase.Failed? then s
    else
      match feature
      case Err(e) => s.(phase := Failed(FeatureRejected(e)), pending := [])
      case Ok(rec) =>
        if insertOk then s.(phase := Loading, pending := s.pending + [rec], log := s.log + [Insert(rec)])
        else s.(phase := Failed(InsertFailed(rec.gmlId)), pending := [], log := s.log + [Insert(rec), Rollback, Close])
  }

  /** `etree.parse(sourcefile)` in `main()`, after the delete has been
      committed: a failure raises uncaught and the process ends. */
  function ReadDocument(s: Session, ok: bool): (r: Session)
    ensures s.phase.Failed? || ok ==> r == s
    ensures !s.phase.Failed? && !ok ==>
      r.phase == Failed(DocumentUnreadable) && r.committed == s.committed && r.pending == [] && r.log == s.log
  {
    if s.phase.Failed? || ok then s
    else s.(phase := Failed(DocumentUnreadable), pending := [])
  }

  /** `commitTransaction`: the open transaction becomes part of the table. The
      call has no `try`, so a failing commit raises out of `main()` and the open
      transaction is lost with the process. Either way the commit is issued. */
  function CommitAll(s: Session, ok: bool): (r: Session)
    ensures s.phase.Failed? ==> r == s
    ensures !s.phase.Failed? && ok ==>
      r.phase == Committed && r.committed == s.committed + s.pending && r.pending == []
    ensures !s.phase.Failed? && !ok ==>
      r.phase == Failed(CommitFailed) && r.committed == s.committed && r.pending == [] && r.log == s.log + [Commit]
    ensures !s.phase.Failed? && ok ==> r.log == s.log + [Commit]
  {
    if s.phase.Failed? then s
    else if ok then Session(Committed, s.committed + s.pending, [], s.log + [Commit])
    else s.(phase := Failed(CommitFailed), pending := [], log := s.log + [Commit])
  }

  /** `closeConnection`: anything not committed is dropped. */
  function CloseConnection(s: Session): (r: Session)
    ensures s.phase.Failed? ==> r == s
    ensures !s.phase.Failed? ==> r.phase == Closed && r.pending == []
    ensures r.committed == s.committed
  {
    if s.phase.Failed? then s
    else Session(Closed, s.committed, [], s.log + [Close])
  }

  /** `vacuumDatabase`: maintenance on its own autocommit connection; it never
      changes the rows, and its failure only ends the run. */
  function VacuumTable(s: Session, ok: bool): (r: Session)
    ensures s.phase.Failed? ==> r == s
    ensures r.committed == s.committed && r.pending == s.pending
    ensures !s.phase.Failed? ==> (r.phase == Maintained <==> ok) && (!ok ==> r.phase == Failed(VacuumFailed))
    ensures !s.phase.Failed? ==> r.log == s.log + [Vacuum]
  {
    if s.phase.Failed? then s
    else if ok then s.(phase := Maintained, log := s.log + [Vacuum])
    else s.(phase := Failed(VacuumFailed), log := s.log + [Vacuum])
  }

  // ---------------------------------------------------------------------------
  // The feature loop
  // ---------------------------------------------------------------------------

  /** The session after loading the first n transformed features: the session
      after n - 1 of them, then the n-th, whose insert succeeds unless its
      position is in `fails`. */
  function LoadAll(s: Session, features: seq<Result<Record, LoadError>>, fails: set<nat>): (r: Session)
    ensures r.committed == s.committed
    ensures ExtendsWithoutCommit(s, r)
    ensures s.phase.Failed? ==> r == s
    decreases |features|
  {
    if |features| == 0 then s
    else
      var n := |features| - 1;
      var before := LoadAll(s, features[..n], fails);
      var r := Load(before, features[n], n !in fails);
      assert r.log[..|s.log|] == s.log by {
        assert r.log[..|before.log|] == before.log;
        assert before.log[..|s.log|] == s.log;
      }
      assert r.log[|s.log|..] == before.log[|s.log|..] + r.log[|before.log|..];
      r
  }

  /** Every feature transformed and every insert succeeding. */
  ghost predicate Clean(features: seq<Result<Record, LoadError>>, fails: set<nat>) {
    forall i :: 0 <= i < |features| ==> features[i].Ok? && i !in fails
  }

  function Rows(features: seq<Result<Record, LoadError>>): (rows: seq<Record>)
    requires forall i :: 0 <= i < |features| ==> features[i].Ok?
    ensures |rows| == |features|
    ensures forall i :: 0 <= i < |features| ==> rows[i] == features[i].value
  {
    seq(|features|, i requires 0 <= i < |features| => features[i].value)
  }

  function Inserts(rows: seq<Record>): (events: seq<Event>)
    ensures |events| == |rows|
    ensures forall i :: 0 <= i < |rows| ==> events[i] == Insert(rows[i])
  {
    seq(|rows|, i requires 0 <= i < |rows| => Insert(rows[i]))
  }

  /** Without failures, every feature is inserted into the open transaction in
      order, and nothing is committed. */
  lemma {:induction false} LoadAllClean(s: Session, features: seq<Result<Record, LoadError>>, fails: set<nat>)
    requires !s.phase.Failed?
    requires Clean(features, fails)
    ensures LoadAll(s, features, fails)
         == Session(if |features| == 0 then s.phase else Loading, s.committed,
                    s.pending + Rows(features), s.log + Inserts(Rows(features)))
    decreases |features|
  {
    if |features| == 0 {
      assert Rows(features) == [] && Inserts([]) == [];
      assert s.pending + [] == s.pending && s.log + [] == s.log;
    } else {
      var n := |features| - 1;
      var pre := features[..n];
      CleanPrefix(features, fails);
      LoadAllClean(s, pre, fails);
      var rec := features[n].value;
      RowsSnoc(features);
      var before := LoadAll(s, pre, fails);
      LoadInserted(before, rec);
      assert LoadAll(s, features, fails) == Load(before, Ok(rec), true);
      assert s.pending + Rows(features) == (s.pending + Rows(pre)) + [rec];
      assert s.log + Inserts(Rows(features)) == (s.log + Inserts(Rows(pre))) + [Insert(rec)];
    }
  }

  /** A clean run's prefix is clean, and its last feature transformed and was inserted. */
  lemma CleanPrefix(features: seq<Result<Record, LoadError>>, fails: set<nat>)
    requires |features| > 0 && Clean(features, fails)
    ensures Clean(features[..|features| - 1], fails)
    ensures features[|features| - 1].Ok? && |features| - 1 !in fails
  {
    var pre := features[..|features| - 1];
    forall i | 0 <= i < |pre|
      ensures pre[i].Ok? && i !in fails
    {
      assert pre[i] == features[i];
    }
  }

  /** A successful insert appends the record to the open transaction and its
      statement to the log. */
  lemma LoadInserted(before: Session, rec: Record)
    requires !before.phase.Failed?
    ensures Load(before, Ok(rec), true)
         == Session(Loading, before.committed, before.pending + [rec], before.log + [Insert(rec)])
  {
  }

  /** The rows and insert events of a non-empty run are those of its prefix plus
      the last feature's. */
  lemma RowsSnoc(features: seq<Result<Record, LoadError>>)
    requires |features| > 0
    requires forall i :: 0 <= i < |features| ==> features[i].Ok?
    ensures Rows(features) == Rows(features[..|features| - 1]) + [features[|features| - 1].value]
    ensures Inserts(Rows(features)) == Inserts(Rows(features[..|features| - 1])) + [Insert(features[|features| - 1].value)]
  {
    var n := |features| - 1;
    assert Rows(features) == Rows(features[..n]) + [features[n].value];
  }

  /** With any failure, the run ends in `Failed` with the open transaction
      dropped and the committed rows untouched. */
  lemma {:induction false} LoadAllDirty(s: Session, features: seq<Result<Record, LoadError>>, fails: set<nat>)
    requires !s.phase.Failed?
    requires !Clean(features, fails)
    ensures LoadAll(s, features, fails).phase.Failed?
    ensures LoadAll(s, features, fails).pending == []
    decreases |features|
  {
    var n := |features| - 1;
    var pre := features[..n];
    if Clean(pre, fails) {
      LoadAllClean(s, pre, fails);
    } else {
      LoadAllDirty(s, pre, fails);
    }
  }

  /** Once a feature has ended the run, the features after it change nothing:
      none of them is processed. */
  lemma {:induction false} LoadAllStopsAtFailure(s: Session, features: seq<Result<Record, LoadError>>,
                                                 fails: set<nat>, k: nat)
    requires k <= |features|
    requires LoadAll(s, features[..k], fails).phase.Failed?
    ensures LoadAll(s, features, fails) == LoadAll(s, features[..k], fails)
    decreases |features|
  {
    if k < |features| {
      var n := |features| - 1;
      assert features[..n][..k] == features[..k];
      LoadAllStopsAtFailure(s, features[..n], fails, k);
    } else {
      assert features[..k] == features;
    }
  }

  // ---------------------------------------------------------------------------
  // main()
  // ---------------------------------------------------------------------------

  /** The XPath `//gml:featureMember` children of every feature member, in document order. */
  function Features(members: seq<seq<string>>): (elements: seq<string>)
    decreases |members|
  {
    if |members| == 0 then [] else Features(members[..|members| - 1]) + members[|members| - 1]
  }

  /** The registry of the job. */
  function RegistryOf(job: Job): TypeRegistry.Registry
    requires TypeRegistry.WellFormed(job.typeRows)
  {
    TypeRegistry.Build(job.typeRows).value
  }

  /** Each feature element of the document, transformed by `loadGml`. */
  function Transformed(job: Job): (features: seq<Result<Record, LoadError>>)
    requires TypeRegistry.WellFormed(job.typeRows)
    ensures |features| == |Features(job.members)|
    ensures forall i :: 0 <= i < |features| ==>
      features[i] == Transform(job.cfg, RegistryOf(job), Envelope.BuildIndex(job.layers), job.parse,
                               Features(job.members)[i])
  {
    var elements := Features(job.members);
    var registry := RegistryOf(job);
    var index := Envelope.BuildIndex(job.layers);
    seq(|elements|, i requires 0 <= i < |elements| => Transform(job.cfg, registry, index, job.parse, elements[i]))
  }

  /** The session `main()` leaves behind, starting from a table holding `table0`. */
  function Run(table0: seq<Record>, job: Job, faults: Faults): Session {
    var connected := Open(Session(Idle, table0, [], []), faults.connectOk, faults.readOk, job.typeRows);
    if connected.phase.Failed? then connected
    else
      var cleared := Clear(connected, faults.deleteOk, faults.restartOk, faults.deleteCommitOk);
      var read := ReadDocument(cleared, faults.documentOk);
      Finish(LoadAll(read, Transformed(job), faults.failingInserts), faults.commitOk, faults.vacuumOk)
  }

  /** The statements after the feature loop: one commit, close, vacuum. */
  function Finish(loaded: Session, commitOk: bool, vacuumOk: bool): Session {
    VacuumTable(CloseConnection(CommitAll(loaded, commitOk)), vacuumOk)
  }

  /** Loading one more feature is one more `Load` step. */
  lemma LoadAllStep(start: Session, features: seq<Result<Record, LoadError>>, fails: set<nat>, i: nat)
    requires i < |features|
    ensures LoadAll(start, features[..i + 1], fails)
         == Load(LoadAll(start, features[..i], fails), features[i], i !in fails)
  {
    assert features[..i + 1][..i] == features[..i];
  }

  /** The `for item in eList` loop of `main()`: each element is transformed and
      loaded in turn, and the process ends at the first failure. */
  method LoadFeatures(start: Session, job: Job, fails: set<nat>) returns (s: Session)
    requires TypeRegistry.WellFormed(job.typeRows)
    ensures s == LoadAll(start, Transformed(job), fails)
  {
    ghost var all := Transformed(job);
    s := start;
    if s.phase.Failed? {
      LoadAllStopsAtFailure(start, all, fails, 0);
      return;
    }
    var registry := TypeRegistry.Build(job.typeRows).value;
    var index := Envelope.BuildIndex(job.layers);
    var elements := Features(job.members);
    var i := 0;
    while i < |elements|
      invariant 0 <= i <= |elements|
      invariant s == LoadAll(start, all[..i], fails)
      invariant !s.phase.Failed?
    {
      var feature := Transform(job.cfg, registry, index, job.parse, elements[i]);
      assert feature == all[i];
      LoadAllStep(start, all, fails, i);
      s := Load(s, feature, i !in fails);
      if s.phase.Failed? {
        LoadAllStopsAtFailure(start, all, fails, i + 1);
        return;
      }
      i := i + 1;
    }
    assert all[..i] == all;
  }

  /** `main()` as written: the statements in order, the loop over the feature
      members, and the exit on the first failure. */
  method RunLoader(table0: seq<Record>, job: Job, faults: Faults) returns (s: Session)
    ensures s == Run(table0, job, faults)
  {
    s := Open(Session(Idle, table0, [], []), faults.connectOk, faults.readOk, job.typeRows);
    if s.phase.Failed? {
      return;
    }
    s := Clear(s, faults.deleteOk, faults.restartOk, faults.deleteCommitOk);
    s := ReadDocument(s, faults.documentOk);
    s := LoadFeatures(s, job, faults.failingInserts);
    if s.phase.Failed? {
      return;
    }
    s := CommitAll(s, faults.commitOk);
    s := CloseConnection(s);
    s := VacuumTable(s, faults.vacuumOk);
  }

  // ---------------------------------------------------------------------------
  // Properties of a run
  // ---------------------------------------------------------------------------

  /** The connection could be opened, the type rows were read and usable, and
      the delete, the sequence restart and their commit went through. */
  ghost predicate Prepared(job: Job, faults: Faults) {
    && faults.connectOk && faults.readOk && TypeRegistry.WellFormed(job.typeRows)
    && faults.deleteOk && faults.restartOk && faults.deleteCommitOk
  }

  /** After the delete: the document parsed, every feature transformed and was
      inserted, and the commit went through. */
  ghost predicate Loaded(job: Job, faults: Faults)
    requires TypeRegistry.WellFormed(job.typeRows)
  {
    faults.documentOk && Clean(Transformed(job), faults.failingInserts) && faults.commitOk
  }

  /** A run that fails before the delete has been committed leaves the table as
      it was. A failed connect issues nothing; after it the `SELECT` of the type
      rows is issued, and a later failure is followed by the rollback of the
      delete, if it got that far, and the close. */
  lemma RunFailsBeforeDelete(table0: seq<Record>, job: Job, faults: Faults)
    requires !Prepared(job, faults)
    ensures Run(table0, job, faults).phase.Failed?
    ensures Run(table0, job, faults).committed == table0
    ensures !faults.connectOk ==>
      Run(table0, job, faults).phase == Failed(ConnectionFailed) && Run(table0, job, faults).log == []
    ensures faults.connectOk && !(faults.readOk && TypeRegistry.WellFormed(job.typeRows)) ==>
      Run(table0, job, faults).phase == Failed(ConnectionFailed) && Run(table0, job, faults).log == [SelectTypes, Close]
    ensures faults.connectOk && faults.readOk && TypeRegistry.WellFormed(job.typeRows) ==>
      Run(table0, job, faults).phase == Failed(DeleteFailed)
    ensures faults.connectOk && faults.readOk && TypeRegistry.WellFormed(job.typeRows) && !faults.deleteOk ==>
      Run(table0, job, faults).log == [SelectTypes, DeleteRows, Rollback, Close]
    ensures faults.connectOk && faults.readOk && TypeRegistry.WellFormed(job.typeRows)
            && faults.deleteOk && !faults.restartOk ==>
      Run(table0, job, faults).log == [SelectTypes, DeleteRows, RestartSequence, Rollback, Close]
    ensures faults.connectOk && faults.readOk && TypeRegistry.WellFormed(job.typeRows)
            && faults.deleteOk && faults.restartOk ==>
      Run(table0, job, faults).log == [SelectTypes, DeleteRows, RestartSequence, Commit, Rollback, Close]
  {
    var connected := Open(Session(Idle, table0, [], []), faults.connectOk, faults.readOk, job.typeRows);
    if connected.phase.Failed? {
      assert Run(table0, job, faults) == connected;
    } else {
      assert connected == Session(Connected, table0, [], [SelectTypes]);
      var cleared := Clear(connected, faults.deleteOk, faults.restartOk, faults.deleteCommitOk);
      assert cleared.phase == Failed(DeleteFailed) && cleared.committed == table0;
      assert Run(table0, job, faults) == cleared;
    }
  }

  /** The statements after a clean loop: the commit stores the open transaction,
      then close and vacuum. */
  lemma FinishCommits(loaded: Session, vacuumOk: bool)
    requires !loaded.phase.Failed?
    ensures var r := Finish(loaded, true, vacuumOk);
      && r.committed == loaded.committed + loaded.pending
      && (r.phase == Maintained <==> vacuumOk)
      && (vacuumOk ==> r.log == loaded.log + [Commit, Close, Vacuum])
  {
    var committed := CommitAll(loaded, true);
    assert committed == Session(Committed, loaded.committed + loaded.pending, [], loaded.log + [Commit]);
    var closed := CloseConnection(committed);
    assert closed.log == loaded.log + [Commit] + [Close];
  }

  /** The loop and the statements after it, from a freshly cleared table, when
      no feature fails and the commit succeeds: every row is committed, in
      order, by the single commit after the loop. */
  lemma LoadAndFinishClean(cleared: Session, features: seq<Result<Record, LoadError>>, fails: set<nat>,
                           vacuumOk: bool)
    requires cleared.phase == Cleared && cleared.committed == [] && cleared.pending == []
    requires Clean(features, fails)
    ensures var r := Finish(LoadAll(cleared, features, fails), true, vacuumOk);
      && r.committed == Rows(features)
      && (r.phase == Maintained <==> vacuumOk)
      && (vacuumOk ==> r.log == cleared.log + Inserts(Rows(features)) + [Commit, Close, Vacuum])
  {
    LoadAllClean(cleared, features, fails);
    var loaded := LoadAll(cleared, features, fails);
    assert [] + Rows(features) == Rows(features);
    FinishCommits(loaded, vacuumOk);
  }

  /** The loop and the statements after it, from a freshly cleared table, when
      some feature fails or the commit fails: nothing is committed and the run
      ends failed. */
  lemma LoadAndFinishDirty(cleared: Session, features: seq<Result<Record, LoadError>>, fails: set<nat>,
                           commitOk: bool, vacuumOk: bool)
    requires cleared.phase == Cleared && cleared.committed == [] && cleared.pending == []
    requires !(Clean(features, fails) && commitOk)
    ensures var r := Finish(LoadAll(cleared, features, fails), commitOk, vacuumOk);
      r.committed == [] && r.phase.Failed?
  {
    if Clean(features, fails) {
      LoadAllClean(cleared, features, fails);
    } else {
      LoadAllDirty(cleared, features, fails);
    }
  }

  /** All-or-nothing: once the delete has gone through, the table ends up holding
      either every feature's row, in document order (when the document parsed,
      every feature transformed and was inserted, and the commit succeeded), or
      nothing at all. The delete and its commit come first in the log, and the
      run reaches `Maintained` exactly when all of that held and the vacuum
      succeeded. */
  lemma RunAllOrNothing(table0: seq<Record>, job: Job, faults: Faults)
    requires Prepared(job, faults)
    ensures var r := Run(table0, job, faults);
      && r.log[..4] == [SelectTypes, DeleteRows, RestartSequence, Commit]
      && (Loaded(job, faults) ==> r.committed == Rows(Transformed(job)))
      && (!Loaded(job, faults) ==> r.committed == [])
      && (r.phase == Maintained <==> Loaded(job, faults) && faults.vacuumOk)
  {
    var connected := Open(Session(Idle, table0, [], []), faults.connectOk, faults.readOk, job.typeRows);
    var cleared := Clear(connected, faults.deleteOk, faults.restartOk, faults.deleteCommitOk);
    var features := Transformed(job);
    assert cleared.log == [SelectTypes, DeleteRows, RestartSequence, Commit];
    var r := Run(table0, job, faults);
    if !faults.documentOk {
      var read := ReadDocument(cleared, false);
      assert r == read;
    } else {
      assert r == Finish(LoadAll(cleared, features, faults.failingInserts), faults.commitOk, faults.vacuumOk);
      assert r.log[..4] == cleared.log by {
        assert ExtendsWithoutCommit(cleared, LoadAll(cleared, features, faults.failingInserts));
      }
      if Clean(features, faults.failingInserts) && faults.commitOk {
        LoadAndFinishClean(cleared, features, faults.failingInserts, faults.vacuumOk);
      } else {
        LoadAndFinishDirty(cleared, features, faults.failingInserts, faults.commitOk, faults.vacuumOk);
      }
    }
  }

  /** On a fully successful run the statements are: the `SELECT` of the type
      rows, the delete and its commit,
      one insert per feature in document order, then exactly one commit, the
      close, and the vacuum. */
  lemma RunSuccessLog(table0: seq<Record>, job: Job, faults: Faults)
    requires Prepared(job, faults) && faults.vacuumOk
    requires Loaded(job, faults)
    ensures Run(table0, job, faults).log
         == [SelectTypes, DeleteRows, RestartSequence, Commit] + Inserts(Rows(Transformed(job))) + [Commit, Close, Vacuum]
  {
    var connected := Open(Session(Idle, table0, [], []), faults.connectOk, faults.readOk, job.typeRows);
    var cleared := Clear(connected, faults.deleteOk, faults.restartOk, faults.deleteCommitOk);
    assert cleared.log == [SelectTypes, DeleteRows, RestartSequence, Commit];
    LoadAndFinishClean(cleared, Transformed(job), faults.failingInserts, faults.vacuumOk);
  }

  /** A document without feature members loads nothing. */
  lemma RunEmptyDocument(table0: seq<Record>, job: Job, faults: Faults)
    requires Prepared(job, faults)
    requires Features(job.members) == []
    ensures Run(table0, job, faults).committed == []
  {
    RunAllOrNothing(table0, job, faults);
  }

  /** Three features whose second insert fails leave the table empty, not with
      one row. */
  lemma RunSecondOfThreeFails(table0: seq<Record>, job: Job, faults: Faults)
    requires Prepared(job, faults)
    requires |Features(job.members)| == 3 && 1 in faults.failingInserts
    ensures Run(table0, job, faults).committed == []
    ensures Run(table0, job, faults).phase.Failed?
  {
    RunAllOrNothing(table0, job, faults);
  }

  /** The table after a run depends only on the job and the store's outcomes
      once the delete has happened, and otherwise is the table before it. */
  lemma RunCommitted(table0: seq<Record>, job: Job, faults: Faults)
    ensures Run(table0, job, faults).committed
         == if !Prepared(job, faults) then table0
            else if Loaded(job, faults) then Rows(Transformed(job))
            else []
  {
    if Prepared(job, faults) {
      RunAllOrNothing(table0, job, faults);
    } else {
      RunFailsBeforeDelete(table0, job, faults);
    }
  }

  /** Running `main()` a second time on the same document, registry and store
      outcomes leaves the same table as the first run. */
  lemma RunIdempotent(table0: seq<Record>, job: Job, faults: Faults)
    ensures Run(Run(table0, job, faults).committed, job, faults).committed
         == Run(table0, job, faults).committed
  {
    RunCommitted(table0, job, faults);
    RunCommitted(Run(table0, job, faults).committed, job, faults);
  }
}

=== FILE: text.dfy ===
/** String operations the loader relies on, with the semantics of the Python
    builtins and `re.sub` patterns it uses: `str.split`, `str.replace`, the
    payload minification and SQL-literal escaping, and `str(int)`. */
module Text {

  // ---------------------------------------------------------------------------
  // str.split with a one-character separator, and its inverse str.join
  // ---------------------------------------------------------------------------

  /** `s.split(sep)`: the maximal separator-free pieces of `s`, in order. */
  function Split(s: string, sep: char): (parts: seq<string>)
    ensures |parts| >= 1
    ensures forall i :: 0 <= i < |parts| ==> sep !in parts[i]
    ensures |parts| == 1 <==> sep !in s
    decreases |s|
  {
    if |s| == 0 then [""]
    else
      var rest := Split(s[1..], sep);
      assert sep in s <==> s[0] == sep || sep in s[1..] by {
        assert s == [s[0]] + s[1..];
      }
      if s[0] == sep then [""] + rest
      else [[s[0]] + rest[0]] + rest[1..]
  }

  /** `sep.join(parts)`. */
  function Join(parts: seq<string>, sep: char): string
    requires |parts| >= 1
    decreases |parts|
  {
    if |parts| == 1 then parts[0] else parts[0] + [sep] + Join(parts[1..], sep)
  }

  /** Joining the pieces of a split restores the original string. */
  lemma {:induction false} JoinSplit(s: string, sep: char)
    ensures Join(Split(s, sep), sep) == s
    decreases |s|
  {
    if |s| > 0 {
      JoinSplit(s[1..], sep);
      var rest := Split(s[1..], sep);
      if s[0] != sep && |rest| > 1 {
        assert Split(s, sep)[1..] == rest[1..];
      }
    }
  }

  /** Splitting a separator-free prefix followed by more text. */
  lemma {:induction false} SplitPrefix(p: string, t: string, sep: char)
    requires sep !in p
    ensures Split(p + t, sep) == [p + Split(t, sep)[0]] + Split(t, sep)[1..]
    decreases |p|
  {
    if |p| > 0 {
      assert (p + t)[1..] == p[1..] + t;
      SplitPrefix(p[1..], t, sep);
      assert [p[0]] + (p[1..] + Split(t, sep)[0]) == p + Split(t, sep)[0];
    } else {
      var st := Split(t, sep);
      assert p + t == t;
      assert p + st[0] == st[0];
      assert st == [st[0]] + st[1..];
    }
  }

  /** Splitting a join of separator-free pieces gives the pieces back. */
  lemma {:induction false} SplitJoin(parts: seq<string>, sep: char)
    requires |parts| >= 1
    requires forall i :: 0 <= i < |parts| ==> sep !in parts[i]
    ensures Split(Join(parts, sep), sep) == parts
    decreases |parts|
  {
    if |parts| == 1 {
      assert Join(parts, sep) == parts[0];
      SplitPrefix(parts[0], "", sep);
      assert parts[0] + "" == parts[0];
    } else {
      var tail := Join(parts[1..], sep);
      SplitJoin(parts[1..], sep);
      assert parts[0] + [sep] + tail == parts[0] + ([sep] + tail);
      SplitPrefix(parts[0], [sep] + tail, sep);
      assert ([sep] + tail)[1..] == tail;
      assert parts[0] + "" == parts[0];
      assert parts == [parts[0]] + parts[1..];
    }
  }

  // ---------------------------------------------------------------------------
  // str.replace
  // ---------------------------------------------------------------------------

  predicate StartsWith(s: string, p: string) {
    |p| <= |s| && s[..|p|] == p
  }

  /** `f` occurs in `s` at some position. */
  predicate Occurs(s: string, f: string) {
    exists i :: 0 <= i <= |s| - |f| && StartsWith(s[i..], f)
  }

  /** `s.replace(f, t)`: non-overlapping occurrences of `f`, scanned left to
      right, are replaced by `t`; an empty `f` matches before every character
      and at the end, as in Python. */
  function Replace(s: string, f: string, t: string): string
    decreases |s|
  {
    if |f| == 0 then
      if |s| == 0 then t else t + [s[0]] + Replace(s[1..], f, t)
    else if |s| == 0 then ""
    else if StartsWith(s, f) then t + Replace(s[|f|..], f, t)
    else [s[0]] + Replace(s[1..], f, t)
  }

  /** A pattern that does not occur leaves the string unchanged. */
  lemma {:induction false} ReplaceAbsent(s: string, f: string, t: string)
    requires |f| > 0 && !Occurs(s, f)
    ensures Replace(s, f, t) == s
    decreases |s|
  {
    if |s| > 0 {
      assert !StartsWith(s, f) by {
        assert s[0..] == s;
      }
      assert !Occurs(s[1..], f) by {
        forall i | 0 <= i <= |s[1..]| - |f|
          ensures !StartsWith(s[1..][i..], f)
        {
          assert s[1..][i..] == s[i + 1..];
        }
      }
      ReplaceAbsent(s[1..], f, t);
    }
  }

  /** Replacing a pattern by itself is the identity. */
  lemma {:induction false} ReplaceSelf(s: string, f: string)
    ensures Replace(s, f, f) == s
    decreases |s|
  {
    if |s| > 0 {
      if |f| == 0 {
        ReplaceSelf(s[1..], f);
        assert s == [s[0]] + s[1..];
      } else if StartsWith(s, f) {
        ReplaceSelf(s[|f|..], f);
        assert s == s[..|f|] + s[|f|..];
      } else {
        ReplaceSelf(s[1..], f);
        assert s == [s[0]] + s[1..];
      }
    }
  }

  // ---------------------------------------------------------------------------
  // Payload minification: re.sub('\n\s*', '', s)
  // ---------------------------------------------------------------------------

  /** The regex class `\s`, restricted to ASCII whitespace. */
  predicate IsSpace(c: char) {
    c == ' ' || c == '\t' || c == '\n' || c == '\r' || c == '\U{000B}' || c == '\U{000C}'
  }

  /** `s` with its leading run of whitespace removed (the `\s*` part of a match). */
  function TrimLeadingSpace(s: string): (r: string)
    ensures |r| <= |s| && r == s[|s| - |r|..]
    ensures |r| == 0 || !IsSpace(r[0])
    ensures forall i :: 0 <= i < |s| - |r| ==> IsSpace(s[i])
    decreases |s|
  {
    if |s| > 0 && IsSpace(s[0]) then TrimLeadingSpace(s[1..]) else s
  }

  /** `re.sub('\n\s*', '', s)`: every newline is deleted together with the
      whitespace run after it (greedy, so further newlines in that run go too). */
  function Minify(s: string): (r: string)
    ensures '\n' !in r
    ensures |r| <= |s|
    decreases |s|
  {
    if |s| == 0 then ""
    else if s[0] == '\n' then Minify(TrimLeadingSpace(s[1..]))
    else [s[0]] + Minify(s[1..])
  }

  /** The non-whitespace characters of `s`, in order. */
  function NonSpace(s: string): string
    decreases |s|
  {
    if |s| == 0 then "" else (if IsSpace(s[0]) then "" else [s[0]]) + NonSpace(s[1..])
  }

  lemma {:induction false} NonSpaceTrim(s: string)
    ensures NonSpace(TrimLeadingSpace(s)) == NonSpace(s)
    decreases |s|
  {
    if |s| > 0 && IsSpace(s[0]) {
      NonSpaceTrim(s[1..]);
    }
  }

  /** Minification deletes whitespace only: every other character survives, in order. */
  lemma {:induction false} MinifyKeepsNonSpace(s: string)
    ensures NonSpace(Minify(s)) == NonSpace(s)
    decreases |s|
  {
    if |s| > 0 {
      if s[0] == '\n' {
        MinifyKeepsNonSpace(TrimLeadingSpace(s[1..]));
        NonSpaceTrim(s[1..]);
      } else {
        MinifyKeepsNonSpace(s[1..]);
        assert ([s[0]] + Minify(s[1..]))[1..] == Minify(s[1..]);
      }
    }
  }

  /** Text without a newline is left exactly as it is. */
  lemma {:induction false} MinifyNewlineFree(s: string)
    requires '\n' !in s
    ensures Minify(s) == s
    decreases |s|
  {
    if |s| > 0 {
      assert s[0] in s;
      assert forall c :: c in s[1..] ==> c in s;
      MinifyNewlineFree(s[1..]);
      assert s == [s[0]] + s[1..];
    }
  }

  /** Minification is idempotent. */
  lemma MinifyIdempotent(s: string)
    ensures Minify(Minify(s)) == Minify(s)
  {
    MinifyNewlineFree(Minify(s));
  }

  lemma {:induction false} TrimConcat(x: string, b: string)
    requires |b| == 0 || !IsSpace(b[0])
    ensures TrimLeadingSpace(x + b) == TrimLeadingSpace(x) + b
    decreases |x|
  {
    if |x| == 0 {
      assert x + b == b;
    } else {
      assert (x + b)[0] == x[0];
      if IsSpace(x[0]) {
        assert (x + b)[1..] == x[1..] + b;
        TrimConcat(x[1..], b);
      }
    }
  }

  /** Text made of whitespace only trims to nothing. */
  lemma {:induction false} TrimAllSpace(w: string)
    requires forall i :: 0 <= i < |w| ==> IsSpace(w[i])
    ensures TrimLeadingSpace(w) == ""
    decreases |w|
  {
    if |w| > 0 {
      assert IsSpace(w[0]);
      assert forall i :: 0 <= i < |w[1..]| ==> w[1..][i] == w[i + 1];
      TrimAllSpace(w[1..]);
    }
  }

  /** A newline at the start of the text is deleted together with the whole
      whitespace run after it: what follows the run is minified as if the newline
      and the run were not there. */
  lemma {:induction false} MinifyNewlineRun(w: string, t: string)
    requires forall i :: 0 <= i < |w| ==> IsSpace(w[i])
    requires |t| == 0 || !IsSpace(t[0])
    ensures Minify("\n" + w + t) == Minify(t)
  {
    var s := "\n" + w + t;
    assert s[0] == '\n' && s[1..] == w + t;
    TrimConcat(w, t);
    TrimAllSpace(w);
    assert TrimLeadingSpace(w + t) == t;
  }

  /** The first newline anywhere in the text is deleted together with the
      whitespace run after it: the newline-free text before it is kept as it is,
      and what follows the run is minified on its own. */
  lemma {:induction false} MinifyFirstNewline(p: string, w: string, t: string)
    requires '\n' !in p
    requires forall i :: 0 <= i < |w| ==> IsSpace(w[i])
    requires |t| == 0 || !IsSpace(t[0])
    ensures Minify(p + "\n" + w + t) == p + Minify(t)
    decreases |p|
  {
    if |p| == 0 {
      assert p + "\n" + w + t == "\n" + w + t;
      MinifyNewlineRun(w, t);
    } else {
      var s := p + "\n" + w + t;
      assert p[0] in p;
      assert s[0] == p[0] && s[1..] == p[1..] + "\n" + w + t;
      assert '\n' !in p[1..] by {
        assert forall c :: c in p[1..] ==> c in p;
      }
      MinifyFirstNewline(p[1..], w, t);
      assert p == [p[0]] + p[1..];
    }
  }

  /** Minification works piecewise across any cut that is followed by a
      non-whitespace character (or the end of the text). */
  lemma {:induction false} MinifyConcat(a: string, b: string)
    requires |b| == 0 || !IsSpace(b[0])
    ensures Minify(a + b) == Minify(a) + Minify(b)
    decreases |a|
  {
    if |a| == 0 {
      assert a + b == b;
    } else {
      assert (a + b)[0] == a[0];
      assert (a + b)[1..] == a[1..] + b;
      if a[0] == '\n' {
        TrimConcat(a[1..], b);
        MinifyConcat(TrimLeadingSpace(a[1..]), b);
      } else {
        MinifyConcat(a[1..], b);
      }
    }
  }

  // ---------------------------------------------------------------------------
  // SQL-literal escaping: re.sub("'", "''", s) and re.sub(r'\\', '/', s)
  // ---------------------------------------------------------------------------

  /** Number of occurrences of `c` in `s`. */
  function CountChar(s: string, c: char): nat
    decreases |s|
  {
    if |s| == 0 then 0 else (if s[0] == c then 1 else 0) + CountChar(s[1..], c)
  }

  /** `re.sub("'", "''", s)`: every single quote is doubled. */
  function DoubleQuotes(s: string): (r: string)
    ensures |r| == |s| + CountChar(s, '\'')
    ensures forall c :: c in r <==> c in s
    decreases |s|
  {
    if |s| == 0 then ""
    else
      var rest := DoubleQuotes(s[1..]);
      assert forall c :: c in s <==> c == s[0] || c in s[1..] by {
        assert s == [s[0]] + s[1..];
      }
      (if s[0] == '\'' then "''" else [s[0]]) + rest
  }

  /** `re.sub(r'\\', '/', s)`: every backslash becomes a forward slash. */
  function SlashBackslashes(s: string): (r: string)
    ensures |r| == |s|
    ensures '\\' !in r
    ensures forall c :: c != '\\' && c != '/' ==> (c in r <==> c in s)
    decreases |s|
  {
    if |s| == 0 then ""
    else
      var rest := SlashBackslashes(s[1..]);
      assert forall c :: c in s <==> c == s[0] || c in s[1..] by {
        assert s == [s[0]] + s[1..];
      }
      [if s[0] == '\\' then '/' else s[0]] + rest
  }

  /** Undoes the quote doubling: each `''` collapses to `'`. */
  function CollapseQuotes(s: string): string
    decreases |s|
  {
    if |s| == 0 then ""
    else if |s| >= 2 && s[0] == '\'' && s[1] == '\'' then "'" + CollapseQuotes(s[2..])
    else [s[0]] + CollapseQuotes(s[1..])
  }

  /** Collapsing doubled quotes inverts the doubling. */
  lemma {:induction false} CollapseDoubleQuotes(s: string)
    ensures CollapseQuotes(DoubleQuotes(s)) == s
    decreases |s|
  {
    if |s| > 0 {
      CollapseDoubleQuotes(s[1..]);
      var d := DoubleQuotes(s);
      if s[0] == '\'' {
        assert d[2..] == DoubleQuotes(s[1..]);
      } else {
        assert d[1..] == DoubleQuotes(s[1..]);
      }
      assert s == [s[0]] + s[1..];
    }
  }

  lemma {:induction false} SlashConcat(a: string, b: string)
    ensures SlashBackslashes(a + b) == SlashBackslashes(a) + SlashBackslashes(b)
    decreases |a|
  {
    if |a| == 0 {
      assert a + b == b;
    } else {
      assert (a + b)[1..] == a[1..] + b;
      SlashConcat(a[1..], b);
    }
  }

  /** Slash conversion and quote doubling touch disjoint characters, so they commute. */
  lemma {:induction false} SlashDoubleQuotesCommute(s: string)
    ensures SlashBackslashes(DoubleQuotes(s)) == DoubleQuotes(SlashBackslashes(s))
    decreases |s|
  {
    if |s| > 0 {
      SlashDoubleQuotesCommute(s[1..]);
      var head := if s[0] == '\'' then "''" else [s[0]];
      SlashConcat(head, DoubleQuotes(s[1..]));
      assert SlashBackslashes(s)[1..] == SlashBackslashes(s[1..]);
    }
  }

  // ---------------------------------------------------------------------------
  // The payload pipeline of one feature
  // ---------------------------------------------------------------------------

  /** The three rewrites applied to the serialised feature, in source order:
      minify, double single quotes, turn backslashes into slashes. */
  function NormalisePayload(xml: string): string {
    SlashBackslashes(DoubleQuotes(Minify(xml)))
  }

  /** The normalised payload is one line without backslashes, its length is the
      minified length plus one per single quote, and collapsing the doubled quotes
      gives back the minified text with backslashes turned into slashes. */
  lemma NormalisePayloadProperties(xml: string)
    ensures '\n' !in NormalisePayload(xml)
    ensures '\\' !in NormalisePayload(xml)
    ensures |NormalisePayload(xml)| == |Minify(xml)| + CountChar(Minify(xml), '\'')
    ensures CollapseQuotes(NormalisePayload(xml)) == SlashBackslashes(Minify(xml))
  {
    var m := Minify(xml);
    SlashDoubleQuotesCommute(m);
    CollapseDoubleQuotes(SlashBackslashes(m));
  }

  /** The quote doubling is `str.replace("'", "''")` and the slash conversion is
      `str.replace("\\", "/")`: for one-character literal patterns `re.sub` and
      `str.replace` agree. */
  lemma {:induction false} EscapesAreReplacements(s: string)
    ensures DoubleQuotes(s) == Replace(s, "'", "''")
    ensures SlashBackslashes(s) == Replace(s, "\\", "/")
    decreases |s|
  {
    if |s| > 0 {
      EscapesAreReplacements(s[1..]);
      assert StartsWith(s, "'") <==> s[0] == '\'';
      assert StartsWith(s, "\\") <==> s[0] == '\\';
    }
  }

  // ---------------------------------------------------------------------------
  // str(int) and its inverse
  // ---------------------------------------------------------------------------

  predicate IsDigit(c: char) {
    '0' <= c <= '9'
  }

  function DigitChar(d: nat): (c: char)
    requires d < 10
    ensures IsDigit(c)
  {
    (('0' as int) + d) as char
  }

  /** Decimal digits of `n`, most significant first, without leading zeros. */
  function NatToString(n: nat): (r: string)
    ensures |r| >= 1
    ensures forall i :: 0 <= i < |r| ==> IsDigit(r[i])
    ensures r[0] == '0' ==> n == 0
  {
    if n < 10 then [DigitChar(n)] else NatToString(n / 10) + [DigitChar(n % 10)]
  }

  /** `str(n)` for a Python int. */
  function IntToString(n: int): (r: string)
    ensures |r| >= 1
  {
    if n < 0 then "-" + NatToString(-n) else NatToString(n)
  }

  function ParseNat(s: string): nat
    requires forall i :: 0 <= i < |s| ==> IsDigit(s[i])
    decreases |s|
  {
    if |s| == 0 then 0
    else
      assert IsDigit(s[|s| - 1]);
      ParseNat(s[..|s| - 1]) * 10 + (s[|s| - 1] as int - '0' as int)
  }

  function ParseInt(s: string): int
    requires |s| >= 1
    requires s[0] == '-' || IsDigit(s[0])
    requires forall i :: 1 <= i < |s| ==> IsDigit(s[i])
  {
    if s[0] == '-' then -(ParseNat(s[1..]) as int) else ParseNat(s)
  }

  lemma {:induction false} ParseNatToString(n: nat)
    ensures ParseNat(NatToString(n)) == n
  {
    if n >= 10 {
      ParseNatToString(n / 10);
      var r := NatToString(n);
      assert r[..|r| - 1] == NatToString(n / 10);
    }
  }

  /** Reading back `str(n)` gives `n`. */
  lemma IntToStringRoundTrip(n: int)
    ensures var r := IntToString(n);
      (r[0] == '-' || IsDigit(r[0])) && (forall i :: 1 <= i < |r| ==> IsDigit(r[i]))
      && ParseInt(r) == n
  {
    if n < 0 {
      ParseNatToString(-n);
      assert IntToString(n)[1..] == NatToString(-n);
    } else {
      ParseNatToString(n);
    }
  }

  /** Distinct integers print differently. */
  lemma IntToStringInjective(a: int, b: int)
    ensures IntToString(a) == IntToString(b) ==> a == b
  {
    IntToStringRoundTrip(a);
    IntToStringRoundTrip(b);
  }
}

=== FILE: wrappers.dfy ===
/** Failure-carrying datatypes shared by the whole model. */
module Wrappers {

  /** Python's `None` or a present value. */
  datatype Option<+T> = None | Some(value: T)

  /** The outcome of a step that can raise: a value, or the error that ended the run. */
  datatype Result<+T, +E> = Ok(value: T) | Err(error: E)
}
